=== FILE: README.md ===
# Portfolio page behaviour, modelled in Dafny

`app.js` adds behaviour to a static portfolio page: a mobile menu, active
navigation-link highlighting, a light/dark theme switch, scroll reveal of
animated elements, a one-shot skill-bar animation, a contact form that
validates its fields and hands a `mailto:` link to the mail client, toast
notifications, and a trailing-edge `debounce` helper. This project models the
decision logic and the small state machines inside those event handlers.
The DOM becomes plain values: strings for form fields and attributes,
integers for layout measurements, booleans and sets for class presence. Timers
become events.

Modules, one per component:

- `JsText` covers the white-space class shared by the regular-expression
  escape `\s` and `String.prototype.trim`. It also defines `trim`, and
  `indexOf` and occurrence counting on one character.
- `Email` is the e-mail shape test `^[^\s@]+@[^\s@]+\.[^\s@]+$`. It is written
  by hand and proved equal to the regular expression read as a language.
- `UriComponent` is `encodeURIComponent` (section 19.2.6.4 of ECMA-262) over
  all Unicode scalar values, encoding through UTF-8 with upper-case hex. Its
  partner is percent-decoding (section 2.1 of RFC 3986), and the two form a
  round trip.
- `Mailto` holds the body template and its `trim`, the link, and a parser for
  the hfields form of section 2 of RFC 6068. The parser recovers what the
  builder put in.
- `ContactForm` has the submit decision and the handler's response:
  notification plus scheduled mail hand-off and reset. It also has
  `validateField` and `clearFieldError`.
- `ActiveLink` is `updateActiveLink`.
- `MobileMenu` covers the toggle, link-click and Escape handlers.
- `SkillBars` is the `skillsAnimated` latch and the staggered width timers.
- `Reveal` covers the polling reveal check and the intersection-observer
  callback.
- `Debounce` is `debounce(func, wait, immediate)`, with timers as identities
  the closure cancels and the browser fires.
- `Theme` is the theme toggle.
- `Notifications` is `showNotification`, with its close button and its two
  presence-checking timers.
- `Wrappers` holds the `Option` type.

Behaviour of app.js worth knowing:

- The active-link probe is `scrollY + 150` when there is no navigation bar.
- When no section holds the probe, the previous highlight is kept.
- A notification can leave before its 4000 ms + 300 ms lifetime: a newer
  notification removes it.
- The submit handler checks emptiness and the e-mail shape on the untrimmed
  values. Blur validation checks the trimmed value.
- A field that passes `validateField` keeps whatever inline border colour it
  had.

## Model

| member | source | states |
|---|---|---|
| JsText.Trim | app.js:345 | The trimmed text is empty iff every character is ECMAScript white space; a non-empty result starts and ends with non-space |
| JsText.TrimWrapped | app.js:292-302 | Trimming a non-space-ended text wrapped in white space yields exactly that text |
| JsText.TrimNoSpace | app.js:345 | A text without white space is unchanged by trim |
| Email.IsEmailMatchesRegex | app.js:284 | The hand-written test (no white space, one `@`, non-empty local part, a dot strictly inside the domain) accepts exactly the strings the regex matches |
| Email.EmailSoundForRegex | app.js:284 | Every string the hand-written test accepts splits as run `@` run `.` run with runs free of white space and `@` |
| Email.RegexSoundForEmail | app.js:284 | Every such split string passes the hand-written test |
| Email.AcceptsExample | app.js:284 | `a@b.co` is accepted |
| Email.RejectsMissingDot | app.js:284 | `foo@bar` is rejected |
| Email.RejectsMissingAt | app.js:284 | `foobar.com` is rejected |
| Email.RejectsTwoAts | app.js:284 | A second `@` is rejected |
| UriComponent.Utf8 | app.js:291 | The shortest form: one byte, its code, below U+0080, two below U+0800, three below U+10000, four above; with Utf8Decodes this fixes every byte |
| UriComponent.Utf8Decodes | app.js:291 | The UTF-8 bytes of a character denote that character, and all bytes after the first are continuation bytes |
| UriComponent.EncodeChar | app.js:291 | An unreserved character maps to itself alone; any other one to `%XX` escapes whose digits are `0-9` or upper-case `A-F`; output is unreserved characters and `%` only |
| UriComponent.Encode | app.js:291-292 | The output contains only unreserved characters and `%`, so never `&`, `=`, `?` or `#`, and is no shorter than the input |
| UriComponent.EncodeAppend | app.js:291-292 | Encoding distributes over concatenation |
| UriComponent.EncodeUnreserved | app.js:291 | A text of unreserved characters encodes to itself |
| UriComponent.DecodeEncode | app.js:291-292 | Percent-decoding the encoding of any string gives its UTF-8 bytes |
| UriComponent.DecodeEncodeAscii | app.js:291-292 | On ASCII text the decoding gives back the character codes |
| UriComponent.EncodeSpaceAndNewline | app.js:292-302 | Space encodes as `%20`, line feed as `%0A` |
| UriComponent.EncodeDelimiters | app.js:304 | `&` encodes as `%26`, `=` as `%3D` |
| Mailto.BodyTextIsCore | app.js:292-302 | The trimmed body is the template minus its fixed leading line break and trailing indentation: it starts with `Name: ` and ends with the signature, whatever the fields hold |
| Mailto.ParseLinkOf | app.js:304 | Parsing the link built from delimiter-free values yields the fixed recipient and the hfields `subject` then `body` with those values |
| Mailto.ParseMailtoLink | app.js:291-304 | The form's link parses to the recipient and two hfields whose values decode to the UTF-8 of the prefixed subject and of the body |
| Mailto.LinkOfDelimiters | app.js:304 | A link built from delimiter-free values has exactly one `?` and one `&` |
| Mailto.LinkDelimiters | app.js:291-304 | The form's link has exactly one `?` and exactly one `&` |
| ContactForm.Decide | app.js:277-304 | Missing field iff some untrimmed field is empty; bad address iff all filled and the untrimmed address fails the shape test; otherwise a link that parses and decodes back to recipient, prefixed subject and body, with one `&` |
| ContactForm.Submit | app.js:267-329 | Error notice iff nothing scheduled iff rejected, with the missing-field or bad-address message; on acceptance the success notice, the link opening at 1000 ms and the form reset at 3000 ms |
| ContactForm.Reset | app.js:326 | Every field is empty after reset |
| ContactForm.Perform | app.js:309-328 | The reset action leaves a form with an empty field and raises the info notice `Form has been reset.`; the mail hand-off leaves the form unchanged and raises the info manual-mail notice exactly when the click throws |
| ContactForm.ResubmitAfterReset | app.js:325-328 | After the deferred reset (the second action an accepted submission schedules), the reset notice is raised and submitting again is refused for missing fields and schedules nothing |
| ContactForm.SubmitExamples | app.js:278-307 | Concrete forms reach each of the three outcomes |
| ContactForm.ValidateField | app.js:344-366 | Fails iff the value is all white space, or the field is `email` and the trimmed value fails the shape test; the error flag is set iff it fails; a failing field gets the red border, a passing one keeps its border |
| ContactForm.ClearFieldError | app.js:368-371 | The error flag and inline border are always cleared; name and value untouched |
| ContactForm.BlurThenInputClears | app.js:333-340 | Blur then input leaves no error, the same as input alone |
| ContactForm.ValidateIdempotent | app.js:344-366 | Validating twice equals validating once |
| ContactForm.SubmitEmailPassesBlur | app.js:345-358 | An address the submit check accepts passes blur validation |
| ContactForm.BlurEmailNotSubmitEmail | app.js:284-285 | ` a@b.co` passes blur validation yet fails the submit check |
| Notifications.ShowNotice | app.js:404-510 | After a show exactly one toast is present, the new one, and its dismissal timer is pending |
| Notifications.Step | app.js:404-510 | Show replaces all toasts; close removes only that toast; the dismissal timer of a shown toast starts its exit and queues its removal timer; the removal timer of a shown toast takes it out; a timer whose toast is gone is only dropped |
| Notifications.Lifetime | app.js:498-510 | Left alone, a new toast's dismissal timer starts the exit animation and queues the removal, whose firing leaves no toast and no timer of its own |
| Notifications.StepValid | app.js:404-510 | Every event keeps at most one toast, fresh identities, and exactly one pending timer for the shown toast, matching its phase |
| Notifications.AtMostOneShown | app.js:406-409 | From page load, after any events, at most one notification is in the document |
| Notifications.ShowTwice | app.js:406-498 | Two notifications in a row leave exactly the second |
| Notifications.RemovalCauses | app.js:501-510 | A toast leaves only by close, a newer show, or its removal timer after the exit animation began; never by its dismissal timer |
| ActiveLink.LinkFor | app.js:116 | The first link whose href equals `"#" + id`, or none when no link points there |
| ActiveLink.Visit | app.js:112-122 | If no section holds the probe the active set is unchanged; otherwise it is the link set of the last holding section |
| ActiveLink.UpdateActiveLinkSpec | app.js:108-123 | No holding section keeps the set; otherwise the set is that of the last holding section and has at most one link |
| ActiveLink.UpdateActiveLinkExample | app.js:108-123 | A probe inside one section activates its link; a probe outside every section keeps the old highlight |
| MobileMenu.CrossLine | app.js:31-35 | Lines past the third are left unchanged |
| MobileMenu.ResetLines | app.js:50-57 | Every line loses both inline styles |
| MobileMenu.Step | app.js:22-58 | Toggle flips both flags; link click forces both off and resets lines; Escape closes an open menu and is a no-op on a closed one |
| MobileMenu.StepConsistent | app.js:26-40 | Each event keeps menu and toggle in agreement and the icon a cross exactly when active |
| MobileMenu.ReachableConsistent | app.js:26-57 | From page load, after any events, the menu is open iff the toggle is active iff the lines are transformed |
| MobileMenu.ToggleTwice | app.js:26-40 | Two toggles restore a consistent menu exactly |
| MobileMenu.EscapeOnlyWhenOpen | app.js:549-567 | Escape acts as a link click when the menu is open and is a no-op when closed |
| MobileMenu.CrossIconShape | app.js:31-35 | The open hamburger's three lines: top rotated, middle faded, bottom counter-rotated |
| SkillBars.Stagger | app.js:248-253 | Bar `i` is scheduled once, at `i*100` ms |
| SkillBars.AnimateSkillBars | app.js:237-255 | No-op once animated; otherwise fires iff the section exists and `2*top < innerHeight`, appending one timer per bar |
| SkillBars.LatchHolds | app.js:238 | Once animated, any later checks change nothing |
| SkillBars.AtMostOnce | app.js:235-258 | From page load, the latch is set iff some check saw the section above the middle, and exactly one staggered batch is scheduled then |
| SkillBars.FireBar | app.js:249-252 | A firing timer sets its bar's width to the progress value plus `%` and touches no other bar |
| SkillBars.StaggerFillsAll | app.js:248-253 | After the staggered timers fire, every bar has its target width |
| Reveal.ScrollCheck | app.js:219-230 | An element is visible afterwards iff it was, or it is animated and its top is above `innerHeight - 100` |
| Reveal.Observe | app.js:534-545 | An element is visible afterwards iff it was, or it is observed and intersecting |
| Reveal.RevealMonotone | app.js:219-230 | Under any triggers, visible elements stay visible, classes stay, and only animated elements become visible |
| Debounce.Cancel | app.js:522 | Exactly the timer named by `timeout` is dropped |
| Debounce.Step | app.js:516-525 | In trailing mode a call runs nothing; in leading mode a firing timer runs nothing; firing a timer no longer held changes nothing |
| Debounce.AtMostOnePending | app.js:514-526 | From creation, after any events, at most one timer is pending |
| Debounce.Burst | app.js:516-525 | A burst leaves exactly the last call's timer pending and runs the first call's arguments only in leading mode from quiet |
| Debounce.BurstThenQuiet | app.js:517-520 | In trailing mode a burst and quiet run the function exactly once, with the last call's arguments, leaving nothing pending |
| Debounce.LeadingEdge | app.js:521-524 | In leading mode a burst from quiet runs the first call's arguments at once and the closing timer runs nothing |
| Theme.Click | app.js:155-178 | The theme flips, the page shows it (attribute, icon, title offering the other theme), and an info notice names it |
| Theme.ClickTwice | app.js:159 | Two clicks restore a view that showed its theme |
| Theme.FirstClick | app.js:153-177 | From the initial light theme the first click switches to dark |

## Left out

- DOM querying and listener registration (`querySelector`, `addEventListener`, `FormData`) are plumbing. Field values and element lists are parameters.
- Layout measurements (`getBoundingClientRect`, `offsetTop`, `offsetHeight`, `innerHeight`, `scrollY`) are integer inputs. In a browser they are fractional.
- `setTimeout` delays are not wall-clock scheduling. Timers are events the environment fires in any order, and delays are data.
- A missing form field (`FormData.get` answering `null`) is modelled as the empty string. Both are falsy, so the submit decision is the same.
- The mobile-menu model assumes both the menu and its toggle button are on the page. The handlers for a page lacking either one are not modelled.
- The 1000 ms mail hand-off (a hidden anchor's click) is a foreign side effect. Whether the click throws is a parameter of `ContactForm.Perform`, and the navigation itself is not modelled.
- ContactForm.Reset: `form.reset()` restores each field's default value from the page markup, which is not part of this model. The defaults are taken to be empty.
- Smooth scrolling on link clicks, the "Get In Touch" button and the brand click (app.js:61-105, app.js:384-395) are layout side effects. So is the re-highlight 100 ms after such a click.
- The navigation-bar `scrolled` class (app.js:126-134) is one comparison on `scrollY` and is not modelled.
- The start-up class assignment and fractional transition delays (app.js:182-217) are not modelled. Elements carry a flag saying whether they have an animation class.
- The observer's threshold and root margin (app.js:529-532) are browser-internal. Only its effect is kept, which is adding `visible` to intersecting observed elements.
- Injected CSS text and the notification's `innerHTML` (app.js:412-495) are presentation. The unescaped message interpolation is not modelled.
- The resume button (app.js:376-382) only raises a notification and is not modelled.
- Strings are sequences of Unicode scalar values. A field holding a lone UTF-16 surrogate makes `encodeURIComponent` throw a `URIError` at app.js:291, outside any `try`, which aborts the submit handler with no notice and nothing scheduled. This is not modelled.
- `UriComponent.DecodeBytes` stops at bytes. Turning non-ASCII UTF-8 back into characters (`decodeURIComponent`'s last step) is not modelled. Round trips on text are stated for ASCII, and on bytes for every string.
- CSS string parsing in the selector `.nav-link[href="#${sectionId}"]` (app.js:116) is not modelled. `ActiveLink.LinkFor` compares the href with `"#" + id` exactly. An identifier containing `"` or a line break makes `querySelector` throw, which stops the `forEach` at that section. An identifier containing `\` is unescaped by the CSS parser and can match a different href.

=== FILE: active_link.dfy ===
/** Active navigation link selection, `updateActiveLink` (app.js:108-123).
    Sections are visited in document order; every section whose vertical
    span holds the probe position clears the `active` class from all
    navigation links and gives it to the link pointing at that section.
    When no section holds the probe, nothing changes. */
module ActiveLink {
  import opened Wrappers

  /** A `section[id]`: its `offsetTop`, `offsetHeight` and `id`. */
  datatype Section = Section(top: int, height: int, id: string)

  /** The probe position: the scroll offset plus the navigation bar's
      height and 100 pixels, or plus 150 pixels without a navigation bar. */
  function ScrollPos(scrollY: int, navbarHeight: Option<int>): int {
    match navbarHeight
    case Some(h) => scrollY + h + 100
    case None => scrollY + 150
  }

  predicate Holds(s: Section, pos: int) {
    s.top <= pos < s.top + s.height
  }

  /** The first `.nav-link` (by index) whose `href` is `#id`: what
      `querySelector` returns. */
  function LinkFor(links: seq<string>, id: string): (r: Option<nat>)
    ensures r.Some? ==> r.value < |links| && links[r.value] == "#" + id
    ensures r.Some? ==> forall k :: 0 <= k < r.value ==> links[k] != "#" + id
    ensures r.None? ==> forall k :: 0 <= k < |links| ==> links[k] != "#" + id
  {
    if |links| == 0 then None
    else if links[0] == "#" + id then Some(0)
    else
      match LinkFor(links[1..], id)
      case None => None
      case Some(k) => Some(k + 1)
  }

  /** The active links after a matching section: its link alone, or none
      when no link points at it. */
  function LinkSet(links: seq<string>, id: string): (r: set<nat>)
    ensures |r| <= 1
  {
    match LinkFor(links, id)
    case None => {}
    case Some(k) => {k}
  }

  ghost predicate NoneHolds(sections: seq<Section>, pos: int) {
    forall i :: 0 <= i < |sections| ==> !Holds(sections[i], pos)
  }

  /** Section `i` holds the probe and no later section does. */
  ghost predicate LastHolding(sections: seq<Section>, pos: int, i: int) {
    && 0 <= i < |sections|
    && Holds(sections[i], pos)
    && forall j :: i < j < |sections| ==> !Holds(sections[j], pos)
  }

  /** The `forEach` over the sections, starting from the active set
      `active`. */
  function Visit(links: seq<string>, pos: int, active: set<nat>, sections: seq<Section>): (r: set<nat>)
    ensures NoneHolds(sections, pos) ==> r == active
    ensures forall i :: LastHolding(sections, pos, i) ==> r == LinkSet(links, sections[i].id)
    decreases |sections|
  {
    if |sections| == 0 then active
    else
      var s := sections[0];
      var next := if Holds(s, pos) then LinkSet(links, s.id) else active;
      var r := Visit(links, pos, next, sections[1..]);
      assert forall i :: 0 < i && LastHolding(sections, pos, i) ==> LastHolding(sections[1..], pos, i - 1);
      assert LastHolding(sections, pos, 0) ==> NoneHolds(sections[1..], pos);
      r
  }

  /** `updateActiveLink`. */
  function UpdateActiveLink(scrollY: int, navbarHeight: Option<int>, sections: seq<Section>,
                            links: seq<string>, active: set<nat>): set<nat>
  {
    Visit(links, ScrollPos(scrollY, navbarHeight), active, sections)
  }

  /** If some section holds the probe, some last one does. */
  lemma {:induction false} LastHoldingExists(sections: seq<Section>, pos: int)
    requires !NoneHolds(sections, pos)
    ensures exists i :: LastHolding(sections, pos, i)
    decreases |sections|
  {
    var n := |sections|;
    if Holds(sections[n - 1], pos) {
      assert LastHolding(sections, pos, n - 1);
    } else {
      var init := sections[..n - 1];
      assert !NoneHolds(init, pos) by {
        var i :| 0 <= i < n && Holds(sections[i], pos);
        assert init[i] == sections[i];
      }
      LastHoldingExists(init, pos);
      var i :| LastHolding(init, pos, i);
      assert LastHolding(sections, pos, i);
    }
  }

  /** The selection rule: when some section holds the probe, the active
      set is exactly the link of the last such section (or empty if no link
      points at it), so at most one link is active; otherwise the previous
      active set is kept unchanged. */
  lemma UpdateActiveLinkSpec(scrollY: int, navbarHeight: Option<int>, sections: seq<Section>,
                             links: seq<string>, active: set<nat>)
    ensures var pos := ScrollPos(scrollY, navbarHeight);
            var r := UpdateActiveLink(scrollY, navbarHeight, sections, links, active);
            && (NoneHolds(sections, pos) ==> r == active)
            && (!NoneHolds(sections, pos) ==>
                  |r| <= 1
                  && exists i :: LastHolding(sections, pos, i) && r == LinkSet(links, sections[i].id))
  {
    var pos := ScrollPos(scrollY, navbarHeight);
    if !NoneHolds(sections, pos) {
      LastHoldingExists(sections, pos);
    }
  }

  /** A concrete page: the probe at 150 lies in `about` (100..400) only, so
      its link becomes the one active link; at 1000 no section holds the
      probe and the old highlight stays. */
  lemma UpdateActiveLinkExample()
    ensures UpdateActiveLink(0, None, [Section(0, 100, "home"), Section(100, 300, "about")],
                             ["#home", "#about"], {0}) == {1}
    ensures UpdateActiveLink(850, None, [Section(0, 100, "home"), Section(100, 300, "about")],
                             ["#home", "#about"], {0}) == {0}
  {
    var secs := [Section(0, 100, "home"), Section(100, 300, "about")];
    assert LastHolding(secs, 150, 1);
    assert LinkFor(["#home", "#about"], "about") == Some(1);
    assert NoneHolds(secs, 1000);
  }
}

=== FILE: contact_form.dfy ===
/** The contact form controller (app.js:261-371): the submit decision and
    its notifications and deferred actions, per-field validation on blur,
    and error clearing on input. */
module ContactForm {
  import opened Wrappers
  import opened JsText
  import opened Email
  import opened UriComponent
  import opened Mailto
  import opened Notifications

  /** The four named fields as `FormData` reports them. */
  datatype Form = Form(name: string, email: string, subject: string, message: string)

  /** `!value` for a text field: only the empty string is falsy. */
  predicate Filled(s: string) {
    |s| > 0
  }

  predicate AllFilled(f: Form) {
    Filled(f.name) && Filled(f.email) && Filled(f.subject) && Filled(f.message)
  }

  /** What a submission decides. */
  datatype Outcome = MissingField | InvalidEmail | Accepted(link: string)

  /** The submit decision of app.js:277-304: emptiness of the untrimmed
      fields first, then the e-mail shape of the untrimmed address, then
      the link. */
  function Decide(f: Form): (r: Outcome)
    ensures r == MissingField <==> !AllFilled(f)
    ensures r == InvalidEmail <==> AllFilled(f) && !IsEmail(f.email)
    ensures r.Accepted? <==> AllFilled(f) && IsEmail(f.email)
    ensures r.Accepted? ==>
      var e1 := Encode(SubjectPrefix + f.subject);
      var e2 := Encode(BodyText(f.name, f.email, f.subject, f.message));
      && ParseMailto(r.link) == Some(MailtoUri(Recipient, [("subject", e1), ("body", e2)]))
      && DecodeBytes(e1) == Some(Utf8String(SubjectPrefix + f.subject))
      && DecodeBytes(e2) == Some(Utf8String(BodyCore(f.name, f.email, f.subject, f.message)))
      && Occurrences(r.link, '&') == 1
  {
    if !AllFilled(f) then MissingField
    else if !IsEmail(f.email) then InvalidEmail
    else
      ParseMailtoLink(f.name, f.email, f.subject, f.message);
      BodyTextIsCore(f.name, f.email, f.subject, f.message);
      LinkDelimiters(f.name, f.email, f.subject, f.message);
      Accepted(MailtoLink(f.name, f.email, f.subject, f.message))
  }

  /** An action the submit handler schedules. */
  datatype Deferred = OpenMail(link: string) | ResetForm

  /** A scheduled action and its delay in milliseconds. */
  datatype Scheduled = Scheduled(delayMs: nat, action: Deferred)

  /** The handler's visible effects: the notification it raises and the
      actions it schedules. */
  datatype Response = Response(notice: Notice, scheduled: seq<Scheduled>)

  const MissingFieldNotice: Notice := Notice("Please fill in all required fields.", Error)
  const InvalidEmailNotice: Notice := Notice("Please enter a valid email address.", Error)
  const AcceptedNotice: Notice := Notice("Thank you for your message! Opening email client...", Success)
  const ResetNotice: Notice := Notice("Form has been reset.", Info)
  const ManualNotice: Notice := Notice("Please send an email manually to: rkumarhk@outlook.com", Info)

  /** The submit handler: a rejected submission raises an error and
      schedules nothing; an accepted one raises a success notice, opens
      the mail client after 1000 ms and resets the form after 3000 ms. */
  function Submit(f: Form): (r: Response)
    ensures r.notice.kind == Error <==> r.scheduled == []
    ensures r.scheduled == [] <==> !AllFilled(f) || !IsEmail(f.email)
    ensures !AllFilled(f) ==> r.notice == MissingFieldNotice
    ensures AllFilled(f) && !IsEmail(f.email) ==> r.notice == InvalidEmailNotice
    ensures r.scheduled != [] ==>
      && r.notice == AcceptedNotice
      && |r.scheduled| == 2
      && r.scheduled[0].delayMs == 1000 && r.scheduled[1].delayMs == 3000
      && r.scheduled[0].action.OpenMail?
      && r.scheduled[0].action.link == Decide(f).link
      && r.scheduled[1].action == ResetForm
  {
    match Decide(f)
    case MissingField => Response(MissingFieldNotice, [])
    case InvalidEmail => Response(InvalidEmailNotice, [])
    case Accepted(link) => Response(AcceptedNotice, [Scheduled(1000, OpenMail(link)), Scheduled(3000, ResetForm)])
  }

  /** `form.reset()` restores every field to its (empty) default value. */
  function Reset(f: Form): (r: Form)
    ensures !Filled(r.name) && !Filled(r.email) && !Filled(r.subject) && !Filled(r.message)
  {
    Form("", "", "", "")
  }

  /** Running a deferred action: the form afterwards and the notice it
      raises, if any. The reset action empties the form and confirms it
      (app.js:325-328). The mail hand-off leaves the form alone and raises
      the manual-mail notice only when the anchor click throws
      (app.js:310-321); `handoffFails` stands for that. */
  function Perform(f: Form, d: Deferred, handoffFails: bool): (r: (Form, Option<Notice>))
    ensures d == ResetForm ==> !AllFilled(r.0) && r.1 == Some(ResetNotice)
    ensures d.OpenMail? ==> r.0 == f && (r.1.Some? <==> handoffFails)
    ensures d.OpenMail? && handoffFails ==> r.1 == Some(ManualNotice)
    ensures r.1.Some? ==> r.1.value.kind == Info
  {
    match d
    case ResetForm => (Reset(f), Some(ResetNotice))
    case OpenMail(_) => if handoffFails then (f, Some(ManualNotice)) else (f, None)
  }

  /** The deferred reset: the form is emptied and the reset is announced,
      so submitting it again is rejected for missing fields before
      anything else is looked at. */
  lemma ResubmitAfterReset(f: Form, handoffFails: bool)
    ensures var after := Perform(f, ResetForm, handoffFails);
            && after.1 == Some(ResetNotice)
            && Submit(after.0).notice == MissingFieldNotice
            && Submit(after.0).scheduled == []
  {
  }

  /** The three outcomes on concrete forms: accepted, refused for the
      address, refused for an empty field. */
  lemma SubmitExamples()
    ensures Submit(Form("Ann", "a@b.co", "Hi", "Hello")).notice == AcceptedNotice
    ensures Submit(Form("Ann", "foo@bar", "Hi", "Hello")).notice == InvalidEmailNotice
    ensures Submit(Form("Ann", "a@b.co", "", "Hello")).notice == MissingFieldNotice
  {
    AcceptsExample();
    RejectsMissingDot();
  }

  // ---------------------------------------------------------------
  // Field validation on blur and error clearing on input

  const ErrorBorder: string := "#ef4444"

  /** An input or text area: its `name` attribute, value, whether it has
      the `error` class, and its inline border colour. */
  datatype Field = Field(name: string, value: string, error: bool, border: string)

  /** `validateField` (app.js:344-366): the verdict and the updated field.
      A field that passes loses the `error` class but keeps its border
      colour; one that fails gets both. */
  function ValidateField(f: Field): (r: (bool, Field))
    ensures !r.0 <==> AllSpace(f.value) || (f.name == "email" && !IsEmail(Trim(f.value)))
    ensures r.1.error == !r.0
    ensures r.1.name == f.name && r.1.value == f.value
    ensures r.1.border == if r.0 then f.border else ErrorBorder
  {
    var value := Trim(f.value);
    var cleared := f.(error := false);
    if |value| == 0 then (false, cleared.(error := true, border := ErrorBorder))
    else if f.name == "email" && !IsEmail(value) then (false, cleared.(error := true, border := ErrorBorder))
    else (true, cleared)
  }

  /** `clearFieldError` (app.js:368-371). */
  function ClearFieldError(f: Field): (r: Field)
    ensures !r.error && r.border == ""
    ensures r.name == f.name && r.value == f.value
  {
    f.(error := false, border := "")
  }

  /** Blur followed by input leaves no error, whatever the value. */
  lemma BlurThenInputClears(f: Field)
    ensures !ClearFieldError(ValidateField(f).1).error
    ensures ClearFieldError(ValidateField(f).1) == ClearFieldError(f)
  {
  }

  /** Validating twice is validating once. */
  lemma ValidateIdempotent(f: Field)
    ensures ValidateField(ValidateField(f).1) == ValidateField(f)
  {
  }

  /** The blur check is looser than the submit check: an address submit
      accepts always passes blur validation (it has no white space, so
      trimming does not change it). */
  lemma SubmitEmailPassesBlur(value: string, error: bool, border: string)
    requires IsEmail(value)
    ensures ValidateField(Field("email", value, error, border)).0
  {
    TrimNoSpace(value);
    assert |value| > 0;
  }

  /** ...but not conversely: a leading blank passes blur and fails submit. */
  lemma BlurEmailNotSubmitEmail()
    ensures ValidateField(Field("email", " a@b.co", false, "")).0
    ensures !IsEmail(" a@b.co")
  {
    TrimWrapped(" ", "a@b.co", "");
    assert " " + "a@b.co" + "" == " a@b.co";
    AcceptsExample();
    assert IsJsSpace(" a@b.co"[0]);
  }
}

=== FILE: debounce.dfy ===
/** The trailing-edge debounce of `debounce(func, wait, immediate)`
    (app.js:513-526). Time is abstract: a call and the firing of a timer
    are events. Each call cancels the timer held in the closure's
    `timeout` variable and schedules a new one; a firing timer clears
    `timeout` and, unless `immediate`, runs the function with the
    arguments of the call that scheduled it. With `immediate`, a call made
    while no timer is pending runs the function at once. */
module Debounce {
  import opened Wrappers

  datatype Timer<A> = Timer(id: nat, args: A)

  /** The closure state: the flag, the `timeout` variable, the timers the
      browser still holds, the next timer identity, and the arguments of
      every run of the wrapped function so far. */
  datatype State<A> = State(immediate: bool, timeout: Option<nat>, live: seq<Timer<A>>, nextId: nat, runs: seq<A>)

  datatype Event<A> = Call(args: A) | Fire(id: nat)

  function Init<A>(immediate: bool): State<A> {
    State(immediate, None, [], 0, [])
  }

  /** `clearTimeout(timeout)`: drops the timer it names, if still held. */
  function Cancel<A>(live: seq<Timer<A>>, timeout: Option<nat>): (r: seq<Timer<A>>)
    ensures forall k :: 0 <= k < |r| ==> r[k] in live && (timeout.None? || r[k].id != timeout.value)
    ensures forall k :: 0 <= k < |live| && (timeout.None? || live[k].id != timeout.value) ==> live[k] in r
    ensures timeout.None? ==> r == live
  {
    if |live| == 0 then []
    else
      (if timeout.Some? && live[0].id == timeout.value then [] else [live[0]])
        + Cancel(live[1..], timeout)
  }

  /** The timer `id` if the browser still holds it. */
  function Find<A>(live: seq<Timer<A>>, id: nat): (r: Option<Timer<A>>)
    ensures r.Some? ==> r.value in live && r.value.id == id
    ensures r.None? ==> forall k :: 0 <= k < |live| ==> live[k].id != id
  {
    if |live| == 0 then None
    else if live[0].id == id then Some(live[0])
    else Find(live[1..], id)
  }

  function Step<A>(s: State<A>, e: Event<A>): (r: State<A>)
    ensures r.immediate == s.immediate
    ensures e.Call? && !s.immediate ==> r.runs == s.runs
    ensures e.Fire? && s.immediate ==> r.runs == s.runs
    ensures e.Fire? && Find(s.live, e.id).None? ==> r == s
  {
    match e
    case Call(a) =>
      var callNow := s.immediate && s.timeout.None?;
      State(s.immediate, Some(s.nextId), Cancel(s.live, s.timeout) + [Timer(s.nextId, a)], s.nextId + 1,
            if callNow then s.runs + [a] else s.runs)
    case Fire(id) =>
      match Find(s.live, id)
      case None => s
      case Some(t) =>
        State(s.immediate, None, Cancel(s.live, Some(id)), s.nextId,
              if s.immediate then s.runs else s.runs + [t.args])
  }

  function Run<A>(s: State<A>, es: seq<Event<A>>): State<A>
    decreases |es|
  {
    if |es| == 0 then s else Run(Step(s, es[0]), es[1..])
  }

  /** At most one timer is pending, and it is the one `timeout` names. */
  ghost predicate Valid<A>(s: State<A>) {
    match s.timeout
    case None => s.live == []
    case Some(id) => |s.live| == 1 && s.live[0].id == id
  }

  lemma StepValid<A>(s: State<A>, e: Event<A>)
    requires Valid(s)
    ensures Valid(Step(s, e))
  {
    match e
    case Call(a) =>
      if s.timeout.Some? {
        assert s.live == [s.live[0]];
        assert Cancel(s.live, s.timeout) == [] + Cancel([], s.timeout);
      }
    case Fire(id) =>
      if Find(s.live, id).Some? {
        assert s.live == [s.live[0]];
        assert Cancel(s.live, Some(id)) == [] + Cancel([], Some(id));
      }
  }

  lemma {:induction false} RunValid<A>(s: State<A>, es: seq<Event<A>>)
    requires Valid(s)
    ensures Valid(Run(s, es))
    decreases |es|
  {
    if |es| > 0 {
      StepValid(s, es[0]);
      RunValid(Step(s, es[0]), es[1..]);
    }
  }

  /** Whatever happens, at most one timer is pending. */
  lemma AtMostOnePending<A>(immediate: bool, es: seq<Event<A>>)
    ensures |Run(Init<A>(immediate), es).live| <= 1
  {
    RunValid(Init<A>(immediate), es);
  }

  function Calls<A>(args: seq<A>): (es: seq<Event<A>>)
    ensures |es| == |args|
  {
    seq(|args|, k requires 0 <= k < |args| => Call(args[k]))
  }

  /** A burst of calls leaves exactly the last call's timer pending; in
      trailing mode it runs nothing, in leading mode it runs the first
      call's arguments if no timer was pending before. */
  lemma {:induction false} Burst<A>(s: State<A>, args: seq<A>)
    requires Valid(s) && |args| > 0
    ensures var r := Run(s, Calls(args));
            var last := s.nextId + |args| - 1;
            && r.live == [Timer(last, args[|args| - 1])]
            && r.timeout == Some(last)
            && r.nextId == last + 1
            && r.immediate == s.immediate
            && r.runs == if s.immediate && s.timeout.None? then s.runs + [args[0]] else s.runs
    decreases |args|
  {
    var s1 := Step(s, Call(args[0]));
    StepValid(s, Call(args[0]));
    assert Calls(args)[0] == Call(args[0]);
    assert Calls(args)[1..] == Calls(args[1..]);
    if s.timeout.Some? {
      assert s.live == [s.live[0]];
      assert Cancel(s.live, s.timeout) == [] + Cancel([], s.timeout);
    }
    if |args| > 1 {
      Burst(s1, args[1..]);
    }
  }

  /** A burst followed by quiet: in trailing mode the wrapped function runs
      exactly once, with the last call's arguments, when the one pending
      timer fires; afterwards nothing is pending. */
  lemma BurstThenQuiet<A>(s: State<A>, args: seq<A>)
    requires Valid(s) && |args| > 0 && !s.immediate
    ensures var r := Run(s, Calls(args));
            var q := Step(r, Fire(s.nextId + |args| - 1));
            && r.runs == s.runs
            && q.runs == s.runs + [args[|args| - 1]]
            && q.live == [] && q.timeout.None?
  {
    Burst(s, args);
    var r := Run(s, Calls(args));
    var last := s.nextId + |args| - 1;
    assert Find(r.live, last) == Some(r.live[0]);
    assert Cancel(r.live, Some(last)) == [] + Cancel([], Some(last));
  }

  /** In leading mode a burst that starts with nothing pending runs the
      function once, at once, with the first call's arguments; the timer
      that ends the burst runs nothing. */
  lemma LeadingEdge<A>(s: State<A>, args: seq<A>)
    requires Valid(s) && |args| > 0 && s.immediate && s.timeout.None?
    ensures var r := Run(s, Calls(args));
            var q := Step(r, Fire(s.nextId + |args| - 1));
            && r.runs == s.runs + [args[0]]
            && q.runs == r.runs
            && q.timeout.None?
  {
    Burst(s, args);
    var r := Run(s, Calls(args));
    assert Find(r.live, s.nextId + |args| - 1) == Some(r.live[0]);
  }
}

=== FILE: email.dfy ===
/** The e-mail shape test of the contact form, the regular expression
    `^[^\s@]+@[^\s@]+\.[^\s@]+$` (app.js:284 and app.js:357). */
module Email {
  import opened Wrappers
  import opened JsText

  /** The character class `[^\s@]`. */
  predicate IsPlain(c: char) {
    !IsJsSpace(c) && c != '@'
  }

  /** `t` matches `[^\s@]+`. */
  predicate PlainRun(t: string) {
    |t| > 0 && forall k :: 0 <= k < |t| ==> IsPlain(t[k])
  }

  /** Reference reading of the regular expression as a language: `s` splits
      as run, `@`, run, `.`, run, with every run non-empty and free of white
      space and `@`. Backtracking lets the `\.` be any dot after the `@`
      that leaves a character on both sides. */
  ghost predicate MatchesEmailRegex(s: string) {
    exists i, j :: 0 < i && i + 1 < j && j + 1 < |s| && s[i] == '@' && s[j] == '.'
      && PlainRun(s[..i]) && PlainRun(s[i + 1..j]) && PlainRun(s[j + 1..])
  }

  /** The domain part holds a dot that is neither its first nor its last
      character. */
  predicate HasInnerDot(domain: string) {
    |domain| >= 3 && '.' in domain[1..|domain| - 1]
  }

  /** Hand-written e-mail test: no white space, exactly one `@`, a
      non-empty local part, and an inner dot in the domain part. */
  predicate IsEmail(s: string) {
    && NoSpace(s)
    && Occurrences(s, '@') == 1
    && match IndexOf(s, '@')
       case None => false
       case Some(at) => 0 < at && HasInnerDot(s[at + 1..])
  }

  /** The hand-written test accepts exactly the strings the regular
      expression matches. */
  lemma IsEmailMatchesRegex(s: string)
    ensures IsEmail(s) <==> MatchesEmailRegex(s)
  {
    if IsEmail(s) {
      EmailSoundForRegex(s);
    }
    if MatchesEmailRegex(s) {
      var i, j :| 0 < i && i + 1 < j && j + 1 < |s| && s[i] == '@' && s[j] == '.'
        && PlainRun(s[..i]) && PlainRun(s[i + 1..j]) && PlainRun(s[j + 1..]);
      RegexSoundForEmail(s, i, j);
    }
  }

  lemma EmailSoundForRegex(s: string)
    requires IsEmail(s)
    ensures MatchesEmailRegex(s)
  {
    var at := IndexOf(s, '@').value;
    var d := s[at + 1..];
    assert '.' in d[1..|d| - 1];
    var k :| 0 <= k < |d[1..|d| - 1]| && d[1..|d| - 1][k] == '.';
    var j := at + 2 + k;
    OnlyOccurrence(s, '@', at);
    assert s[j] == '.';
    assert PlainRun(s[..at]) by {
      forall m | 0 <= m < at ensures IsPlain(s[..at][m]) {
        assert s[..at][m] == s[m];
        assert s[m] != '@';
      }
    }
    var mid, tld := s[at + 1..j], s[j + 1..];
    assert PlainRun(mid) by {
      forall m | 0 <= m < |mid| ensures IsPlain(mid[m]) {
        assert mid[m] == s[at + 1 + m];
      }
    }
    assert PlainRun(tld) by {
      forall m | 0 <= m < |tld| ensures IsPlain(tld[m]) {
        assert tld[m] == s[j + 1 + m];
      }
    }
  }

  lemma RegexSoundForEmail(s: string, i: int, j: int)
    requires 0 < i && i + 1 < j && j + 1 < |s| && s[i] == '@' && s[j] == '.'
    requires PlainRun(s[..i]) && PlainRun(s[i + 1..j]) && PlainRun(s[j + 1..])
    ensures IsEmail(s)
  {
    // every position other than i holds a character of `[^\s@]` or the dot
    forall m | 0 <= m < |s| && m != i
      ensures IsPlain(s[m])
    {
      if m < i {
        assert s[..i][m] == s[m];
      } else if m < j {
        assert s[i + 1..j][m - i - 1] == s[m];
      } else if j < m {
        assert s[j + 1..][m - j - 1] == s[m];
      }
    }
    assert NoSpace(s);
    var rest := s[i + 1..];
    assert s == s[..i] + [s[i]] + rest;
    assert '@' !in s[..i];
    assert '@' !in rest by {
      forall m | 0 <= m < |rest| ensures rest[m] != '@' {
        assert rest[m] == s[i + 1 + m];
      }
    }
    OccurrencesAppend(s[..i] + [s[i]], rest, '@');
    OccurrencesAppend(s[..i], [s[i]], '@');
    assert IndexOf(s, '@') == Some(i);
    assert rest[1..|rest| - 1][j - i - 2] == '.';
  }

  /** `a@b.co` is accepted. */
  lemma AcceptsExample()
    ensures IsEmail("a@b.co")
  {
    RegexSoundForEmail("a@b.co", 1, 3);
  }

  /** A domain without a dot is rejected. */
  lemma RejectsMissingDot()
    ensures !IsEmail("foo@bar")
  {
    assert IndexOf("foo@bar", '@') == Some(3);
    assert "foo@bar"[4..][1..2] == "a";
  }

  /** A string without `@` is rejected. */
  lemma RejectsMissingAt()
    ensures !IsEmail("foobar.com")
  {
    assert '@' !in "foobar.com";
  }

  /** A second `@` is rejected. */
  lemma RejectsTwoAts()
    ensures !IsEmail("a@b@c.de")
  {
    assert Occurrences("a@b@c.de", '@') == 2;
  }
}

=== FILE: js_text.dfy ===
/** String facilities of the JavaScript language that app.js relies on:
    the white-space class shared by the regular-expression escape `\s` and
    `String.prototype.trim`, trimming itself, and small searching helpers.
    Strings are sequences of Unicode scalar values. */
module JsText {
  import opened Wrappers

  /** ECMAScript WhiteSpace or LineTerminator: TAB, VT, FF, SP, NBSP,
      ZWNBSP, the other space separators (category Zs), LF, CR, LS and PS.
      These are exactly the characters `\s` matches and `trim` removes. */
  predicate IsJsSpace(c: char) {
    var n := c as int;
    || 0x09 <= n <= 0x0D
    || n == 0x20 || n == 0xA0 || n == 0x1680
    || 0x2000 <= n <= 0x200A
    || n == 0x2028 || n == 0x2029 || n == 0x202F || n == 0x205F
    || n == 0x3000 || n == 0xFEFF
  }

  predicate AllSpace(s: string) {
    forall k :: 0 <= k < |s| ==> IsJsSpace(s[k])
  }

  predicate NoSpace(s: string) {
    forall k :: 0 <= k < |s| ==> !IsJsSpace(s[k])
  }

  /** Length of the longest all-space prefix of `s`. */
  function LeadingSpaces(s: string): (n: nat)
    ensures n <= |s|
    ensures AllSpace(s[..n])
    ensures n == |s| || !IsJsSpace(s[n])
  {
    if |s| == 0 || !IsJsSpace(s[0]) then 0
    else
      var m := LeadingSpaces(s[1..]);
      assert s[1..][..m] == s[1..m + 1];
      1 + m
  }

  /** Length of the longest all-space suffix of `s`. */
  function TrailingSpaces(s: string): (n: nat)
    ensures n <= |s|
    ensures AllSpace(s[|s| - n..])
    ensures n == |s| || !IsJsSpace(s[|s| - n - 1])
  {
    if |s| == 0 || !IsJsSpace(s[|s| - 1]) then 0
    else
      var m := TrailingSpaces(s[..|s| - 1]);
      assert s[..|s| - 1][|s| - 1 - m..] == s[|s| - 1 - m..|s| - 1];
      1 + m
  }

  /** `String.prototype.trim`: removes leading and trailing white space. */
  function Trim(s: string): (r: string)
    ensures |r| <= |s|
    ensures |r| == 0 <==> AllSpace(s)
    ensures |r| > 0 ==> !IsJsSpace(r[0]) && !IsJsSpace(r[|r| - 1])
  {
    var lead := LeadingSpaces(s);
    var t := s[lead..];
    var trail := TrailingSpaces(t);
    var r := t[..|t| - trail];
    assert AllSpace(s) ==> lead == |s|;
    assert lead == |s| ==> AllSpace(s) by {
      if lead == |s| { assert s[..lead] == s; }
    }
    r
  }

  /** Trimming a text with non-space ends that is wrapped in white space
      gives back exactly that text. */
  lemma TrimWrapped(pre: string, x: string, post: string)
    requires AllSpace(pre) && AllSpace(post)
    requires |x| > 0 && !IsJsSpace(x[0]) && !IsJsSpace(x[|x| - 1])
    ensures Trim(pre + x + post) == x
  {
    var s := pre + x + post;
    var lead := LeadingSpaces(s);
    assert s[|pre|] == x[0];
    assert lead == |pre|;
    var t := s[lead..];
    assert t == x + post;
    var trail := TrailingSpaces(t);
    assert t[|x| - 1] == x[|x| - 1];
    assert trail == |post|;
    assert t[..|t| - trail] == x;
  }

  /** A text without white space is left alone by `trim`. */
  lemma TrimNoSpace(s: string)
    requires NoSpace(s)
    ensures Trim(s) == s
  {
    if |s| > 0 {
      TrimWrapped([], s, []);
      assert [] + s + [] == s;
    }
  }

  /** Number of occurrences of `c` in `s`. */
  function Occurrences(s: string, c: char): (n: nat)
    ensures n <= |s|
    ensures n == 0 <==> c !in s
  {
    if |s| == 0 then 0
    else (if s[0] == c then 1 else 0) + Occurrences(s[1..], c)
  }

  lemma {:induction false} OccurrencesAppend(a: string, b: string, c: char)
    ensures Occurrences(a + b, c) == Occurrences(a, c) + Occurrences(b, c)
  {
    if |a| == 0 {
      assert a + b == b;
    } else {
      assert (a + b)[1..] == a[1..] + b;
      OccurrencesAppend(a[1..], b, c);
    }
  }

  /** `String.prototype.indexOf` for one character: the first position
      holding `c`, or None where JavaScript answers -1. */
  function IndexOf(s: string, c: char): (r: Option<nat>)
    ensures r.None? <==> c !in s
    ensures r.Some? ==> r.value < |s| && s[r.value] == c && c !in s[..r.value]
  {
    if |s| == 0 then None
    else if s[0] == c then Some(0)
    else
      match IndexOf(s[1..], c)
      case None => None
      case Some(i) =>
        assert s[..i + 1] == [s[0]] + s[1..][..i];
        Some(i + 1)
  }

  /** The first occurrence is the one `IndexOf` reports. */
  lemma IndexOfFirst(s: string, c: char, i: nat)
    requires i < |s| && s[i] == c && c !in s[..i]
    ensures IndexOf(s, c) == Some(i)
  {
  }

  /** A character that occurs once in `s` occurs nowhere but at its
      first position. */
  lemma OnlyOccurrence(s: string, c: char, i: nat)
    requires Occurrences(s, c) == 1 && i < |s| && s[i] == c
    ensures forall k :: 0 <= k < |s| && k != i ==> s[k] != c
  {
    assert s == s[..i] + [s[i]] + s[i + 1..];
    OccurrencesAppend(s[..i] + [s[i]], s[i + 1..], c);
    OccurrencesAppend(s[..i], [s[i]], c);
    forall k | 0 <= k < |s| && k != i
      ensures s[k] != c
    {
      if k < i {
        assert s[..i][k] == s[k];
      } else {
        assert s[i + 1..][k - i - 1] == s[k];
      }
    }
  }
}

=== FILE: mailto.dfy ===
/** The `mailto:` link the contact form hands to the mail client
    (app.js:290-304), and a parser for the hfields shape of section 2 of
    RFC 6068 (`mailto:` to `?` hfield *( `&` hfield ), hfield = hfname `=`
    hfvalue) that recovers what the builder put in. */
module Mailto {
  import opened Wrappers
  import opened JsText
  import opened UriComponent

  const Recipient: string := "rkumarhk@outlook.com"
  const SubjectPrefix: string := "Portfolio Contact: "
  const Signature: string := "This message was sent from Rohit Kumar's portfolio website."

  /** The message body between the template literal's fixed leading line
      break and its fixed trailing line break and indentation. */
  function BodyCore(name: string, email: string, subject: string, message: string): string {
    "Name: " + name + "\nEmail: " + email + "\nSubject: " + subject
      + "\n\nMessage:\n" + message + "\n\n---\n" + Signature
  }

  /** The template literal of app.js:292-302 before `.trim()`. */
  function BodyTemplate(name: string, email: string, subject: string, message: string): string {
    "\n" + BodyCore(name, email, subject, message) + "\n        "
  }

  /** The body text after `.trim()`. */
  function BodyText(name: string, email: string, subject: string, message: string): string {
    Trim(BodyTemplate(name, email, subject, message))
  }

  /** `.trim()` removes only the template's own fixed white space: the
      body starts with `Name: ` and ends with the signature, whatever
      white space the user typed at either end of the fields. */
  lemma BodyTextIsCore(name: string, email: string, subject: string, message: string)
    ensures BodyText(name, email, subject, message) == BodyCore(name, email, subject, message)
    ensures BodyText(name, email, subject, message)[..6] == "Name: "
    ensures Signature <= BodyText(name, email, subject, message)[|BodyText(name, email, subject, message)| - |Signature|..]
  {
    var core := BodyCore(name, email, subject, message);
    BodyCoreEnds(name, email, subject, message);
    assert core[0] == core[..6][0] == 'N';
    assert core[|core| - 1] == Signature[|Signature| - 1] == '.';
    assert AllSpace("\n") && AllSpace("\n        ");
    TrimWrapped("\n", core, "\n        ");
  }

  /** The core starts with `Name: ` and ends with the signature. */
  lemma BodyCoreEnds(name: string, email: string, subject: string, message: string)
    ensures var core := BodyCore(name, email, subject, message);
            && |core| >= 6 + |Signature|
            && core[..6] == "Name: "
            && core[|core| - |Signature|..] == Signature
  {
    var head := "Name: " + name + "\nEmail: " + email + "\nSubject: " + subject
      + "\n\nMessage:\n" + message + "\n\n---\n";
    var core := BodyCore(name, email, subject, message);
    assert core == head + Signature;
    assert head[..6] == "Name: ";
    assert core[..6] == head[..6];
  }

  /** The link of app.js:304, from the two encoded hfield values. */
  function LinkOf(encSubject: string, encBody: string): string {
    "mailto:" + Recipient + "?subject=" + encSubject + "&body=" + encBody
  }

  /** The link the form builds from its four fields. */
  function MailtoLink(name: string, email: string, subject: string, message: string): string {
    LinkOf(Encode(SubjectPrefix + subject), Encode(BodyText(name, email, subject, message)))
  }

  datatype MailtoUri = MailtoUri(to: string, hfields: seq<(string, string)>)

  /** Concatenation of `parts` with `c` between neighbours. */
  function Join(parts: seq<string>, c: char): string
    requires |parts| >= 1
  {
    if |parts| == 1 then parts[0] else parts[0] + [c] + Join(parts[1..], c)
  }

  /** `String.prototype.split` on one character. */
  function SplitOn(s: string, c: char): (parts: seq<string>)
    ensures |parts| >= 1
    ensures forall k :: 0 <= k < |parts| ==> c !in parts[k]
    ensures Join(parts, c) == s
    decreases |s|
  {
    match IndexOf(s, c)
    case None => [s]
    case Some(i) =>
      var rest := SplitOn(s[i + 1..], c);
      var parts := [s[..i]] + rest;
      assert parts[1..] == rest;
      assert s == s[..i] + [c] + s[i + 1..];
      parts
  }

  /** One hfield: the name before the first `=`, the value after it. */
  function SplitField(f: string): Option<(string, string)> {
    match IndexOf(f, '=')
    case None => None
    case Some(i) => Some((f[..i], f[i + 1..]))
  }

  function SplitFields(fs: seq<string>): (r: Option<seq<(string, string)>>)
    ensures r.Some? ==> |r.value| == |fs|
  {
    if |fs| == 0 then Some([])
    else
      match SplitField(fs[0])
      case None => None
      case Some(h) =>
        match SplitFields(fs[1..])
        case None => None
        case Some(t) => Some([h] + t)
  }

  /** Parser for the hfields form of a `mailto:` URI. */
  function ParseMailto(link: string): Option<MailtoUri> {
    if |link| < 7 || link[..7] != "mailto:" then None
    else
      var rest := link[7..];
      match IndexOf(rest, '?')
      case None => Some(MailtoUri(rest, []))
      case Some(q) =>
        match SplitFields(SplitOn(rest[q + 1..], '&'))
        case None => None
        case Some(fields) => Some(MailtoUri(rest[..q], fields))
  }

  lemma SplitTwo(a: string, b: string, c: char)
    requires c !in a && c !in b
    ensures SplitOn(a + [c] + b, c) == [a, b]
  {
    var s := a + [c] + b;
    assert s[|a|] == c;
    assert s[..|a|] == a;
    assert s[|a| + 1..] == b;
    IndexOfFirst(s, c, |a|);
  }

  lemma SplitFieldAt(name: string, value: string)
    requires '=' !in name && '=' !in value
    ensures SplitField(name + "=" + value) == Some((name, value))
  {
    var f := name + "=" + value;
    assert f[|name|] == '=';
    assert f[..|name|] == name;
    assert f[|name| + 1..] == value;
    IndexOfFirst(f, '=', |name|);
  }

  lemma ParseWithQuery(to: string, query: string, fields: seq<(string, string)>)
    requires '?' !in to
    requires SplitFields(SplitOn(query, '&')) == Some(fields)
    ensures ParseMailto("mailto:" + to + "?" + query) == Some(MailtoUri(to, fields))
  {
    var rest := to + "?" + query;
    var link := "mailto:" + to + "?" + query;
    assert link == "mailto:" + rest;
    SchemeSplit(rest);
    QuerySplit(to, query);
    ParseAt(link, |to|, fields);
  }

  /** What the parser does once the scheme and the first `?` are found. */
  lemma ParseAt(link: string, q: nat, fields: seq<(string, string)>)
    requires |link| >= 7 && link[..7] == "mailto:"
    requires IndexOf(link[7..], '?') == Some(q)
    requires SplitFields(SplitOn(link[7..][q + 1..], '&')) == Some(fields)
    ensures ParseMailto(link) == Some(MailtoUri(link[7..][..q], fields))
  {
  }

  lemma SchemeSplit(rest: string)
    ensures |"mailto:" + rest| >= 7
    ensures ("mailto:" + rest)[..7] == "mailto:" && ("mailto:" + rest)[7..] == rest
  {
  }

  /** The first `?` of `to ? query` ends a `?`-free recipient. */
  lemma QuerySplit(to: string, query: string)
    requires '?' !in to
    ensures var rest := to + "?" + query;
            && IndexOf(rest, '?') == Some(|to|)
            && rest[..|to|] == to && rest[|to| + 1..] == query
  {
    var rest := to + "?" + query;
    assert rest[|to|] == '?' && rest[..|to|] == to;
    IndexOfFirst(rest, '?', |to|);
    assert rest[|to| + 1..] == query;
  }

  lemma SubjectBodyFields(e1: string, e2: string)
    requires '&' !in e1 && '=' !in e1 && '&' !in e2 && '=' !in e2
    ensures SplitFields(SplitOn("subject=" + e1 + "&body=" + e2, '&'))
            == Some([("subject", e1), ("body", e2)])
  {
    var f1, f2 := "subject=" + e1, "body=" + e2;
    assert "subject=" + e1 + "&body=" + e2 == f1 + ['&'] + f2 by {
      assert "&body=" == ['&'] + "body=";
    }
    assert f1 == "subject" + "=" + e1 by {
      assert "subject=" == "subject" + "=";
    }
    assert f2 == "body" + "=" + e2 by {
      assert "body=" == "body" + "=";
    }
    assert '&' !in f1 by { NotInAppend("subject=", e1, '&'); }
    assert '&' !in f2 by { NotInAppend("body=", e2, '&'); }
    SplitTwo(f1, f2, '&');
    SplitFieldAt("subject", e1);
    SplitFieldAt("body", e2);
    SplitFieldsTwo(f1, f2);
  }

  lemma NotInAppend(a: string, b: string, c: char)
    requires c !in a && c !in b
    ensures c !in a + b
  {
  }

  lemma SplitFieldsTwo(f1: string, f2: string)
    requires SplitField(f1).Some? && SplitField(f2).Some?
    ensures SplitFields([f1, f2]) == Some([SplitField(f1).value, SplitField(f2).value])
  {
    var h1, h2 := SplitField(f1).value, SplitField(f2).value;
    assert SplitFields([f2]) == Some([h2]) by {
      assert [f2][1..] == [];
      assert [h2] + [] == [h2];
    }
    assert [f1, f2][1..] == [f2];
    assert [h1] + [h2] == [h1, h2];
  }

  /** The link is the scheme, the recipient, `?` and the query of two
      hfields. */
  lemma LinkOfQuery(e1: string, e2: string)
    ensures LinkOf(e1, e2) == "mailto:" + Recipient + "?" + ("subject=" + e1 + "&body=" + e2)
  {
    assert "?subject=" == "?" + "subject=";
  }

  /** Parsing a link built from delimiter-free values gives back the
      recipient and the two hfields in order. */
  lemma ParseLinkOf(e1: string, e2: string)
    requires '&' !in e1 && '=' !in e1 && '&' !in e2 && '=' !in e2
    ensures ParseMailto(LinkOf(e1, e2)) == Some(MailtoUri(Recipient, [("subject", e1), ("body", e2)]))
  {
    var query := "subject=" + e1 + "&body=" + e2;
    LinkOfQuery(e1, e2);
    SubjectBodyFields(e1, e2);
    assert '?' !in Recipient;
    ParseWithQuery(Recipient, query, [("subject", e1), ("body", e2)]);
  }

  /** Round trip: parsing the form's link gives back the fixed recipient and
      exactly two hfields, `subject` and `body`, whose values percent-decode
      to the UTF-8 bytes of the prefixed subject and of the body text. */
  lemma ParseMailtoLink(name: string, email: string, subject: string, message: string)
    ensures var e1 := Encode(SubjectPrefix + subject);
            var e2 := Encode(BodyText(name, email, subject, message));
            && ParseMailto(MailtoLink(name, email, subject, message))
               == Some(MailtoUri(Recipient, [("subject", e1), ("body", e2)]))
            && DecodeBytes(e1) == Some(Utf8String(SubjectPrefix + subject))
            && DecodeBytes(e2) == Some(Utf8String(BodyText(name, email, subject, message)))
  {
    var b := BodyText(name, email, subject, message);
    ParseLinkOf(Encode(SubjectPrefix + subject), Encode(b));
    DecodeEncode(SubjectPrefix + subject);
    DecodeEncode(b);
  }

  /** A link built from delimiter-free values has exactly one `?` and
      exactly one `&`. */
  lemma LinkOfDelimiters(e1: string, e2: string)
    requires '&' !in e1 && '?' !in e1 && '&' !in e2 && '?' !in e2
    ensures Occurrences(LinkOf(e1, e2), '&') == 1
    ensures Occurrences(LinkOf(e1, e2), '?') == 1
  {
    OccurrencesInLink(e1, e2, '&');
    OccurrencesInLink(e1, e2, '?');
    LinkLiteralCounts();
  }

  /** How often `?` and `&` occur in the fixed parts of the link. */
  lemma LinkLiteralCounts()
    ensures Occurrences("mailto:" + Recipient, '&') == 0 && Occurrences("mailto:" + Recipient, '?') == 0
    ensures Occurrences("?subject=", '&') == 0 && Occurrences("?subject=", '?') == 1
    ensures Occurrences("&body=", '&') == 1 && Occurrences("&body=", '?') == 0
  {
    assert '&' !in "mailto:" + Recipient && '?' !in "mailto:" + Recipient;
    assert "?subject=" == "?" + "subject=";
    assert "&body=" == "&" + "body=";
    OccurrencesAppend("?", "subject=", '&');
    OccurrencesAppend("?", "subject=", '?');
    OccurrencesAppend("&", "body=", '&');
    OccurrencesAppend("&", "body=", '?');
  }

  lemma OccurrencesInLink(e1: string, e2: string, c: char)
    ensures Occurrences(LinkOf(e1, e2), c)
            == Occurrences("mailto:" + Recipient, c) + Occurrences("?subject=", c)
               + Occurrences(e1, c) + Occurrences("&body=", c) + Occurrences(e2, c)
  {
    var head := "mailto:" + Recipient;
    var p := head + "?subject=";
    assert LinkOf(e1, e2) == p + e1 + "&body=" + e2;
    OccurrencesAppend(head, "?subject=", c);
    OccurrencesAppend(p, e1, c);
    OccurrencesAppend(p + e1, "&body=", c);
    OccurrencesAppend(p + e1 + "&body=", e2, c);
  }

  /** The form's link has exactly one `?` and exactly one `&`, because the
      encoder never emits either. */
  lemma LinkDelimiters(name: string, email: string, subject: string, message: string)
    ensures Occurrences(MailtoLink(name, email, subject, message), '&') == 1
    ensures Occurrences(MailtoLink(name, email, subject, message), '?') == 1
  {
    var b := BodyText(name, email, subject, message);
    LinkOfDelimiters(Encode(SubjectPrefix + subject), Encode(b));
  }
}

=== FILE: mobile_menu.dfy ===
/** The mobile navigation menu (app.js:20-58 and app.js:548-567): the
    `active` class of the menu and of its toggle button, and the inline
    styles of the toggle's hamburger lines. Events are a click on the
    toggle, a click on any navigation link, and the Escape key. */
module MobileMenu {

  /** Inline `transform` and `opacity` of one hamburger line. */
  datatype Line = Line(transform: string, opacity: string)

  datatype Menu = Menu(menuActive: bool, toggleActive: bool, lines: seq<Line>)

  datatype Event = Toggle | LinkClick | Escape

  const Plain: Line := Line("", "")
  const TopCross: string := "rotate(45deg) translate(5px, 5px)"
  const BottomCross: string := "rotate(-45deg) translate(7px, -6px)"

  /** Page load: both elements inactive, no inline styles. */
  function Init(lineCount: nat): Menu {
    Menu(false, false, seq(lineCount, _ => Plain))
  }

  /** The style the open toggle gives line `index`: the first and third
      lines rotate, the middle one fades; other properties and further
      lines are left as they were. */
  function CrossLine(l: Line, index: nat): (r: Line)
    ensures index > 2 ==> r == l
  {
    if index == 0 then l.(transform := TopCross)
    else if index == 1 then l.(opacity := "0")
    else if index == 2 then l.(transform := BottomCross)
    else l
  }

  function CrossLines(lines: seq<Line>): (r: seq<Line>)
    ensures |r| == |lines|
  {
    seq(|lines|, i requires 0 <= i < |lines| => CrossLine(lines[i], i))
  }

  /** Every line loses both inline styles. */
  function ResetLines(lines: seq<Line>): (r: seq<Line>)
    ensures |r| == |lines|
    ensures forall i :: 0 <= i < |r| ==> r[i] == Plain
  {
    seq(|lines|, _ => Plain)
  }

  /** The hamburger drawn as a cross. */
  function CrossIcon(n: nat): seq<Line> {
    CrossLines(seq(n, _ => Plain))
  }

  /** One event. */
  function Step(m: Menu, e: Event): (r: Menu)
    ensures |r.lines| == |m.lines|
    ensures e == Toggle ==> r.menuActive == !m.menuActive && r.toggleActive == !m.toggleActive
    ensures e == LinkClick ==> !r.menuActive && !r.toggleActive && r.lines == ResetLines(m.lines)
    ensures e == Escape && m.menuActive ==> !r.menuActive && !r.toggleActive && r.lines == ResetLines(m.lines)
    ensures e == Escape && !m.menuActive ==> r == m
  {
    match e
    case Toggle =>
      var toggle := !m.toggleActive;
      Menu(!m.menuActive, toggle, if toggle then CrossLines(m.lines) else ResetLines(m.lines))
    case LinkClick =>
      Menu(false, false, ResetLines(m.lines))
    case Escape =>
      if m.menuActive then Menu(false, false, ResetLines(m.lines)) else m
  }

  function Run(m: Menu, es: seq<Event>): Menu
    decreases |es|
  {
    if |es| == 0 then m else Run(Step(m, es[0]), es[1..])
  }

  /** The menu and its toggle agree, and the hamburger is a cross exactly
      when the toggle is active (plain otherwise). */
  ghost predicate Consistent(m: Menu) {
    && m.menuActive == m.toggleActive
    && m.lines == if m.toggleActive then CrossIcon(|m.lines|) else ResetLines(m.lines)
  }

  lemma StepConsistent(m: Menu, e: Event)
    requires Consistent(m)
    ensures Consistent(Step(m, e))
  {
    var r := Step(m, e);
    if e == Toggle && !m.toggleActive {
      assert m.lines == seq(|m.lines|, _ => Plain);
    }
  }

  lemma {:induction false} RunConsistent(m: Menu, es: seq<Event>)
    requires Consistent(m)
    ensures Consistent(Run(m, es))
    decreases |es|
  {
    if |es| > 0 {
      StepConsistent(m, es[0]);
      RunConsistent(Step(m, es[0]), es[1..]);
    }
  }

  /** From page load, after any events, the menu is open exactly when the
      toggle is active, and the hamburger lines are transformed exactly
      then. */
  lemma ReachableConsistent(lineCount: nat, es: seq<Event>)
    ensures var m := Run(Init(lineCount), es);
            && m.menuActive == m.toggleActive
            && (m.toggleActive ==> m.lines == CrossIcon(lineCount))
            && (!m.toggleActive ==> forall i :: 0 <= i < |m.lines| ==> m.lines[i] == Plain)
  {
    assert Consistent(Init(lineCount));
    RunConsistent(Init(lineCount), es);
    assert |Run(Init(lineCount), es).lines| == lineCount by {
      RunLength(Init(lineCount), es);
    }
  }

  lemma {:induction false} RunLength(m: Menu, es: seq<Event>)
    ensures |Run(m, es).lines| == |m.lines|
    decreases |es|
  {
    if |es| > 0 {
      RunLength(Step(m, es[0]), es[1..]);
    }
  }

  /** Toggling twice restores a consistent menu. */
  lemma ToggleTwice(m: Menu)
    requires Consistent(m)
    ensures Step(Step(m, Toggle), Toggle) == m
  {
    if !m.toggleActive {
      assert m.lines == seq(|m.lines|, _ => Plain);
    }
  }

  /** Escape acts like a link click while the menu is open and does
      nothing while it is closed. */
  lemma EscapeOnlyWhenOpen(m: Menu)
    ensures Step(m, Escape) == if m.menuActive then Step(m, LinkClick) else m
  {
  }

  /** The three-line hamburger drawn as a cross. */
  lemma CrossIconShape()
    ensures CrossIcon(3) == [Line(TopCross, ""), Line("", "0"), Line(BottomCross, "")]
  {
  }
}

=== FILE: notifications.dfy ===
/** The toast notifications of `showNotification` (app.js:403-511): each call
    removes every notification in the document and appends a new one, whose
    4000 ms timer starts the exit animation and whose 300 ms follow-up timer
    removes it; both timers first check that the element is still in the
    document. The close button removes the element at once. */
module Notifications {

  datatype Kind = Info | Success | Error

  /** A message and the kind that selects its colours. */
  datatype Notice = Notice(message: string, kind: Kind)

  /** A notification element in the document; `exiting` once the
      slide-out animation has been started. */
  datatype Toast = Toast(id: nat, notice: Notice, exiting: bool)

  /** A pending timer: the 4000 ms dismissal or the 300 ms removal. */
  datatype Timer = Dismiss(id: nat) | Remove(id: nat)

  /** The document's notifications, the pending timers, the next fresh
      element identity, and whether the shared style block was injected. */
  datatype Board = Board(shown: seq<Toast>, timers: seq<Timer>, nextId: nat, styled: bool)

  const Initial: Board := Board([], [], 0, false)

  datatype Event = Show(notice: Notice) | Close(id: nat) | Fire(timer: nat)

  predicate Shows(b: Board, id: nat) {
    exists k :: 0 <= k < |b.shown| && b.shown[k].id == id
  }

  /** The toasts other than `id`, in order. */
  function Without(shown: seq<Toast>, id: nat): (r: seq<Toast>)
    ensures forall t :: t in r <==> t in shown && t.id != id
    ensures |r| <= |shown|
  {
    if |shown| == 0 then []
    else (if shown[0].id == id then [] else [shown[0]]) + Without(shown[1..], id)
  }

  /** Marks toast `id` as exiting. */
  function MarkExiting(shown: seq<Toast>, id: nat): (r: seq<Toast>)
    ensures |r| == |shown|
    ensures forall k :: 0 <= k < |r| ==>
      r[k] == (if shown[k].id == id then shown[k].(exiting := true) else shown[k])
  {
    seq(|shown|, k requires 0 <= k < |shown| =>
      if shown[k].id == id then shown[k].(exiting := true) else shown[k])
  }

  /** The pending timers once the `k`-th has fired. */
  function RemoveAt(s: seq<Timer>, k: nat): (r: seq<Timer>)
    requires k < |s|
    ensures |r| == |s| - 1
    ensures forall j :: 0 <= j < |r| ==> r[j] == (if j < k then s[j] else s[j + 1])
  {
    s[..k] + s[k + 1..]
  }

  /** `showNotification`: every existing toast goes, one new toast is
      appended, and its dismissal timer is scheduled. */
  function ShowNotice(b: Board, n: Notice): (r: Board)
    ensures r.shown == [Toast(b.nextId, n, false)]
    ensures r.timers == b.timers + [Dismiss(b.nextId)]
    ensures r.nextId > b.nextId && r.styled
  {
    Board([Toast(b.nextId, n, false)], b.timers + [Dismiss(b.nextId)], b.nextId + 1, true)
  }

  /** The reaction to one event. A timer whose toast has left the document
      is dropped and does nothing else. */
  function Step(b: Board, e: Event): (r: Board)
    ensures r.nextId >= b.nextId
    ensures e.Show? ==> r == ShowNotice(b, e.notice)
    ensures e.Close? ==> r == b.(shown := Without(b.shown, e.id))
    ensures e.Fire? && e.timer < |b.timers| && !Shows(b, b.timers[e.timer].id) ==>
      r == b.(timers := RemoveAt(b.timers, e.timer))
    ensures e.Fire? && e.timer < |b.timers| && b.timers[e.timer].Dismiss? && Shows(b, b.timers[e.timer].id) ==>
      var id := b.timers[e.timer].id;
      r == b.(shown := MarkExiting(b.shown, id), timers := RemoveAt(b.timers, e.timer) + [Remove(id)])
    ensures e.Fire? && e.timer < |b.timers| && b.timers[e.timer].Remove? && Shows(b, b.timers[e.timer].id) ==>
      r == b.(shown := Without(b.shown, b.timers[e.timer].id), timers := RemoveAt(b.timers, e.timer))
  {
    match e
    case Show(n) => ShowNotice(b, n)
    case Close(id) => b.(shown := Without(b.shown, id))
    case Fire(k) =>
      if k >= |b.timers| then b
      else
        var rest := RemoveAt(b.timers, k);
        match b.timers[k]
        case Dismiss(id) =>
          if Shows(b, id) then b.(shown := MarkExiting(b.shown, id), timers := rest + [Remove(id)])
          else b.(timers := rest)
        case Remove(id) =>
          if Shows(b, id) then b.(shown := Without(b.shown, id), timers := rest)
          else b.(timers := rest)
  }

  function Run(b: Board, es: seq<Event>): Board
    decreases |es|
  {
    if |es| == 0 then b else Run(Step(b, es[0]), es[1..])
  }

  /** The pending timer a toast in the given phase is waiting for. */
  function PhaseTimer(t: Toast): Timer {
    if t.exiting then Remove(t.id) else Dismiss(t.id)
  }

  /** The pending timers that belong to toast `id`, in order. */
  function TimersFor(ts: seq<Timer>, id: nat): (r: seq<Timer>)
    ensures |r| <= |ts|
  {
    if |ts| == 0 then []
    else (if ts[0].id == id then [ts[0]] else []) + TimersFor(ts[1..], id)
  }

  lemma {:induction false} TimersForAppend(a: seq<Timer>, c: seq<Timer>, id: nat)
    ensures TimersFor(a + c, id) == TimersFor(a, id) + TimersFor(c, id)
  {
    if |a| == 0 {
      assert a + c == c;
    } else {
      assert (a + c)[1..] == a[1..] + c;
      TimersForAppend(a[1..], c, id);
    }
  }

  lemma {:induction false} TimersForFresh(ts: seq<Timer>, id: nat)
    requires forall j :: 0 <= j < |ts| ==> ts[j].id < id
    ensures TimersFor(ts, id) == []
  {
    if |ts| > 0 {
      TimersForFresh(ts[1..], id);
    }
  }

  /** Splitting the timers around position `k`. */
  lemma TimersForAround(ts: seq<Timer>, k: nat, id: nat)
    requires k < |ts|
    ensures TimersFor(ts, id) == TimersFor(ts[..k], id) + TimersFor([ts[k]], id) + TimersFor(ts[k + 1..], id)
    ensures TimersFor(RemoveAt(ts, k), id) == TimersFor(ts[..k], id) + TimersFor(ts[k + 1..], id)
  {
    assert ts == ts[..k] + [ts[k]] + ts[k + 1..];
    TimersForAppend(ts[..k] + [ts[k]], ts[k + 1..], id);
    TimersForAppend(ts[..k], [ts[k]], id);
    TimersForAppend(ts[..k], ts[k + 1..], id);
  }

  /** The board invariant: at most one toast is shown, identities are
      fresh, and the toast shown is waiting for exactly one timer, the one
      of its phase (dismissal before the exit animation, removal after). */
  ghost predicate Valid(b: Board) {
    && |b.shown| <= 1
    && (forall k :: 0 <= k < |b.shown| ==> b.shown[k].id < b.nextId)
    && (forall j :: 0 <= j < |b.timers| ==> b.timers[j].id < b.nextId)
    && (forall k :: 0 <= k < |b.shown| ==> TimersFor(b.timers, b.shown[k].id) == [PhaseTimer(b.shown[k])])
  }

  lemma InitialValid()
    ensures Valid(Initial)
  {
  }

  lemma WithoutSingle(t: Toast, id: nat)
    ensures Without([t], id) == if t.id == id then [] else [t]
  {
    assert [t][1..] == [];
  }

  lemma ShowValid(b: Board, n: Notice)
    requires Valid(b)
    ensures Valid(Step(b, Show(n)))
  {
    var r := Step(b, Show(n));
    TimersForFresh(b.timers, b.nextId);
    TimersForAppend(b.timers, [Dismiss(b.nextId)], b.nextId);
    assert TimersFor([Dismiss(b.nextId)], b.nextId) == [Dismiss(b.nextId)];
  }

  lemma CloseValid(b: Board, id: nat)
    requires Valid(b)
    ensures Valid(Step(b, Close(id)))
  {
    if |b.shown| == 1 {
      assert b.shown == [b.shown[0]];
      WithoutSingle(b.shown[0], id);
    }
  }

  /** The shown toast's dismissal timer fires: the exit animation starts
      and the removal timer becomes its only pending timer. */
  lemma FireDismissValid(b: Board, k: nat)
    requires Valid(b) && k < |b.timers| && |b.shown| == 1 && b.timers[k] == Dismiss(b.shown[0].id)
    ensures Valid(Step(b, Fire(k)))
  {
    var t := b.shown[0];
    var r := Step(b, Fire(k));
    var rest := RemoveAt(b.timers, k);
    assert Shows(b, t.id);
    assert r.shown == MarkExiting(b.shown, t.id);
    assert r.shown == [t.(exiting := true)];
    assert r.timers == rest + [Remove(t.id)];
    TimersForAround(b.timers, k, t.id);
    assert TimersFor([b.timers[k]], t.id) == [Dismiss(t.id)];
    assert TimersFor(rest, t.id) == [];
    TimersForAppend(rest, [Remove(t.id)], t.id);
    assert TimersFor([Remove(t.id)], t.id) == [Remove(t.id)];
  }

  /** The shown toast's removal timer fires: the board empties. */
  lemma FireRemoveValid(b: Board, k: nat)
    requires Valid(b) && k < |b.timers| && |b.shown| == 1 && b.timers[k] == Remove(b.shown[0].id)
    ensures Valid(Step(b, Fire(k)))
  {
    var t := b.shown[0];
    assert b.shown == [t];
    assert Shows(b, t.id);
    WithoutSingle(t, t.id);
  }

  /** A timer of a toast no longer shown fires: it is only dropped. */
  lemma FireStaleValid(b: Board, k: nat)
    requires Valid(b) && k < |b.timers| && !Shows(b, b.timers[k].id)
    ensures Valid(Step(b, Fire(k)))
  {
    var r := Step(b, Fire(k));
    var rest := RemoveAt(b.timers, k);
    assert r.shown == b.shown && r.timers == rest;
    if |b.shown| == 1 {
      var t := b.shown[0];
      TimersForAround(b.timers, k, t.id);
      assert TimersFor([b.timers[k]], t.id) == [];
    }
  }

  /** A pending timer of the shown toast is the timer of its phase. */
  lemma PendingIsPhase(b: Board, k: nat)
    requires Valid(b) && |b.shown| == 1 && k < |b.timers| && b.timers[k].id == b.shown[0].id
    ensures b.timers[k] == PhaseTimer(b.shown[0])
  {
    var t := b.shown[0];
    TimersForAround(b.timers, k, t.id);
    assert TimersFor([b.timers[k]], t.id) == [b.timers[k]];
    var a, c := TimersFor(b.timers[..k], t.id), TimersFor(b.timers[k + 1..], t.id);
    assert |a| + 1 + |c| == 1;
    assert a == [] && c == [];
    assert [PhaseTimer(t)] == [b.timers[k]];
  }

  lemma FireValid(b: Board, k: nat)
    requires Valid(b) && k < |b.timers|
    ensures Valid(Step(b, Fire(k)))
  {
    if |b.shown| == 1 && b.timers[k].id == b.shown[0].id {
      var t := b.shown[0];
      PendingIsPhase(b, k);
      if t.exiting {
        FireRemoveValid(b, k);
      } else {
        FireDismissValid(b, k);
      }
    } else {
      assert !Shows(b, b.timers[k].id);
      FireStaleValid(b, k);
    }
  }

  /** Every event keeps the invariant. */
  lemma StepValid(b: Board, e: Event)
    requires Valid(b)
    ensures Valid(Step(b, e))
  {
    match e
    case Show(n) => ShowValid(b, n);
    case Close(id) => CloseValid(b, id);
    case Fire(k) => if k < |b.timers| { FireValid(b, k); }
  }

  lemma {:induction false} RunValid(b: Board, es: seq<Event>)
    requires Valid(b)
    ensures Valid(Run(b, es))
    decreases |es|
  {
    if |es| > 0 {
      StepValid(b, es[0]);
      RunValid(Step(b, es[0]), es[1..]);
    }
  }

  /** From page load, whatever happens, at most one notification is in
      the document. */
  lemma AtMostOneShown(es: seq<Event>)
    ensures |Run(Initial, es).shown| <= 1
  {
    InitialValid();
    RunValid(Initial, es);
  }

  /** A notification left alone lives out its course: its dismissal timer
      starts the exit animation and queues the removal timer, which takes
      it out of the document. */
  lemma Lifetime(b: Board, n: Notice)
    ensures var s := Step(ShowNotice(b, n), Fire(|b.timers|));
            var d := Step(s, Fire(|b.timers|));
            && s.shown == [Toast(b.nextId, n, true)]
            && s.timers == b.timers + [Remove(b.nextId)]
            && d.shown == []
            && d.timers == b.timers
  {
    var a := ShowNotice(b, n);
    assert a.timers[|b.timers|] == Dismiss(b.nextId);
    assert a.shown[0].id == b.nextId;
    assert RemoveAt(a.timers, |b.timers|) == b.timers;
    var s := Step(a, Fire(|b.timers|));
    assert s.shown[0].id == b.nextId;
    assert s.timers[|b.timers|] == Remove(b.nextId);
    assert RemoveAt(s.timers, |b.timers|) == b.timers;
  }

  /** Two notifications in a row leave exactly one element: the second. */
  lemma ShowTwice(b: Board, n1: Notice, n2: Notice)
    ensures Step(Step(b, Show(n1)), Show(n2)).shown == [Toast(b.nextId + 1, n2, false)]
  {
  }

  /** A toast leaves the document only through its close button, its own
      removal timer once the exit animation has started, or a newer
      notification; in particular never through its dismissal timer. */
  lemma RemovalCauses(b: Board, e: Event, id: nat)
    requires Valid(b) && Shows(b, id) && !Shows(Step(b, e), id)
    ensures || e.Show?
            || e == Close(id)
            || (e.Fire? && e.timer < |b.timers| && b.timers[e.timer] == Remove(id)
                && b.shown[0].id == id && b.shown[0].exiting)
  {
    var t := b.shown[0];
    assert b.shown == [t];
    match e
    case Show(_) =>
    case Close(_) =>
    case Fire(k) =>
      if k < |b.timers| {
        match b.timers[k]
        case Dismiss(d) =>
        case Remove(d) =>
          if d == id {
            PendingIsPhase(b, k);
          }
      }
  }
}

=== FILE: reveal.dfy ===
/** The scroll reveal of animated elements: the polling check
    `handleScrollAnimations` (app.js:219-230) and the intersection
    observer's callback (app.js:534-540). Both only ever add the
    `visible` class. */
module Reveal {

  /** An element's classes that matter here: whether it carries one of
      `fade-in`, `slide-in-left`, `slide-in-right`, and whether it is
      `visible`. */
  datatype Element = Element(animated: bool, visible: bool)

  const VisibleMargin: int := 100

  /** The polling check: an animated element not yet visible whose top
      edge is above `innerHeight - 100` becomes visible. */
  function ScrollCheck(els: seq<Element>, tops: seq<int>, innerHeight: int): (r: seq<Element>)
    requires |tops| == |els|
    ensures |r| == |els|
    ensures forall i :: 0 <= i < |r| ==> r[i].animated == els[i].animated
    ensures forall i :: 0 <= i < |r| ==>
      (r[i].visible <==> els[i].visible || (els[i].animated && tops[i] < innerHeight - VisibleMargin))
  {
    seq(|els|, i requires 0 <= i < |els| =>
      if els[i].animated && !els[i].visible && tops[i] < innerHeight - VisibleMargin
      then els[i].(visible := true) else els[i])
  }

  /** The observer callback. The observer watches exactly the elements
      that carried an animation class at start-up (and the classes never
      change afterwards); an intersecting one becomes visible. */
  function Observe(els: seq<Element>, intersecting: seq<bool>): (r: seq<Element>)
    requires |intersecting| == |els|
    ensures |r| == |els|
    ensures forall i :: 0 <= i < |r| ==> r[i].animated == els[i].animated
    ensures forall i :: 0 <= i < |r| ==>
      (r[i].visible <==> els[i].visible || (els[i].animated && intersecting[i]))
  {
    seq(|els|, i requires 0 <= i < |els| =>
      if els[i].animated && intersecting[i] then els[i].(visible := true) else els[i])
  }

  /** A trigger: the polling check (debounced scroll, the 100 ms start-up
      timer, the page becoming visible again) or an observer callback. */
  datatype Event = Check(tops: seq<int>, innerHeight: int) | Intersect(intersecting: seq<bool>)

  predicate Fits(e: Event, n: nat) {
    match e
    case Check(tops, _) => |tops| == n
    case Intersect(flags) => |flags| == n
  }

  function Step(els: seq<Element>, e: Event): (r: seq<Element>)
    requires Fits(e, |els|)
    ensures |r| == |els|
  {
    match e
    case Check(tops, h) => ScrollCheck(els, tops, h)
    case Intersect(flags) => Observe(els, flags)
  }

  function Run(els: seq<Element>, es: seq<Event>): (r: seq<Element>)
    requires forall k :: 0 <= k < |es| ==> Fits(es[k], |els|)
    ensures |r| == |els|
    decreases |es|
  {
    if |es| == 0 then els else Run(Step(els, es[0]), es[1..])
  }

  /** Whatever the triggers, a visible element stays visible, the
      animation classes stay as they are, and only animated elements
      become visible. */
  lemma {:induction false} RevealMonotone(els: seq<Element>, es: seq<Event>)
    requires forall k :: 0 <= k < |es| ==> Fits(es[k], |els|)
    ensures forall i :: 0 <= i < |els| ==> Run(els, es)[i].animated == els[i].animated
    ensures forall i :: 0 <= i < |els| && els[i].visible ==> Run(els, es)[i].visible
    ensures forall i :: 0 <= i < |els| && !els[i].animated ==> Run(els, es)[i].visible == els[i].visible
    decreases |es|
  {
    if |es| > 0 {
      var next := Step(els, es[0]);
      assert forall k :: 0 <= k < |es| - 1 ==> es[1..][k] == es[k + 1];
      RevealMonotone(next, es[1..]);
    }
  }
}

=== FILE: skill_bars.dfy ===
/** The skill-bar animation, `animateSkillBars` (app.js:232-259): a
    one-shot latch that, the first time the skills section's top is above
    the middle of the viewport, schedules each bar's width change at a
    100 ms stagger. */
module SkillBars {
  import opened Wrappers

  /** A scheduled width change of bar `bar` after `delayMs` milliseconds. */
  datatype BarTimer = BarTimer(delayMs: nat, bar: nat)

  datatype Skills = Skills(animated: bool, scheduled: seq<BarTimer>)

  const Initial: Skills := Skills(false, [])

  /** What a check sees: the `#skills` section's top edge relative to the
      viewport (None when the page has no such section) and the viewport
      height. */
  datatype Layout = Layout(sectionTop: Option<int>, innerHeight: int)

  /** `top < innerHeight / 2` on exact numbers, kept in integers. */
  predicate AboveMiddle(l: Layout) {
    l.sectionTop.Some? && 2 * l.sectionTop.value < l.innerHeight
  }

  /** One timer per bar, bar `i` at `i * 100` ms. */
  function Stagger(barCount: nat): (r: seq<BarTimer>)
    ensures |r| == barCount
    ensures forall i :: 0 <= i < barCount ==> r[i].bar == i && r[i].delayMs == i * 100
  {
    seq(barCount, (i: nat) => BarTimer(i * 100, i))
  }

  /** One check, from the debounced scroll handler or the 500 ms startup
      timer. */
  function AnimateSkillBars(s: Skills, l: Layout, barCount: nat): (r: Skills)
    ensures s.animated ==> r == s
    ensures !s.animated ==> (r.animated <==> AboveMiddle(l))
    ensures !r.animated ==> r == s
    ensures r.animated && !s.animated ==> r.scheduled == s.scheduled + Stagger(barCount)
  {
    if s.animated then s
    else if l.sectionTop.None? then s
    else if 2 * l.sectionTop.value < l.innerHeight then
      Skills(true, s.scheduled + Stagger(barCount))
    else s
  }

  function Run(s: Skills, ls: seq<Layout>, barCount: nat): Skills
    decreases |ls|
  {
    if |ls| == 0 then s else Run(AnimateSkillBars(s, ls[0], barCount), ls[1..], barCount)
  }

  /** Once set, the latch makes every later check a no-op. */
  lemma {:induction false} LatchHolds(s: Skills, ls: seq<Layout>, barCount: nat)
    requires s.animated
    ensures Run(s, ls, barCount) == s
    decreases |ls|
  {
    if |ls| > 0 {
      LatchHolds(AnimateSkillBars(s, ls[0], barCount), ls[1..], barCount);
    }
  }

  /** From page load, whatever the checks see, the bars are scheduled at
      most once: nothing is scheduled until some check sees the section
      above the middle, and from then on exactly one timer per bar. */
  lemma {:induction false} AtMostOnce(ls: seq<Layout>, barCount: nat)
    ensures var r := Run(Initial, ls, barCount);
            && (r.animated <==> exists i :: 0 <= i < |ls| && AboveMiddle(ls[i]))
            && r.scheduled == if r.animated then Stagger(barCount) else []
    decreases |ls|
  {
    if |ls| > 0 {
      var s1 := AnimateSkillBars(Initial, ls[0], barCount);
      if s1.animated {
        LatchHolds(s1, ls[1..], barCount);
        assert [] + Stagger(barCount) == Stagger(barCount);
      } else {
        AtMostOnce(ls[1..], barCount);
        assert forall i :: 0 < i < |ls| ==> ls[i] == ls[1..][i - 1];
        assert forall i :: 0 <= i < |ls| - 1 ==> ls[1..][i] == ls[i + 1];
      }
    }
  }

  /** A timer fires: the bar's width becomes its `data-progress` value
      followed by `%`. */
  function FireBar(widths: seq<string>, progress: seq<string>, t: BarTimer): (r: seq<string>)
    requires |widths| == |progress|
    ensures |r| == |widths|
    ensures forall i :: 0 <= i < |r| && i != t.bar ==> r[i] == widths[i]
    ensures t.bar < |r| ==> r[t.bar] == progress[t.bar] + "%"
  {
    if t.bar < |widths| then widths[t.bar := progress[t.bar] + "%"] else widths
  }

  function FireAll(widths: seq<string>, progress: seq<string>, ts: seq<BarTimer>): (r: seq<string>)
    requires |widths| == |progress|
    ensures |r| == |widths|
    decreases |ts|
  {
    if |ts| == 0 then widths else FireAll(FireBar(widths, progress, ts[0]), progress, ts[1..])
  }

  lemma {:induction false} FireAllSets(widths: seq<string>, progress: seq<string>, ts: seq<BarTimer>, i: nat)
    requires |widths| == |progress| && i < |widths|
    ensures (exists k :: 0 <= k < |ts| && ts[k].bar == i) ==> FireAll(widths, progress, ts)[i] == progress[i] + "%"
    ensures (forall k :: 0 <= k < |ts| ==> ts[k].bar != i) ==> FireAll(widths, progress, ts)[i] == widths[i]
    decreases |ts|
  {
    if |ts| > 0 {
      var w1 := FireBar(widths, progress, ts[0]);
      FireAllSets(w1, progress, ts[1..], i);
      if exists k :: 0 <= k < |ts| && ts[k].bar == i {
        if ts[0].bar != i {
          var k :| 0 <= k < |ts| && ts[k].bar == i;
          assert ts[1..][k - 1].bar == i;
        } else if !(exists k :: 0 <= k < |ts| - 1 && ts[1..][k].bar == i) {
          assert w1[i] == progress[i] + "%";
        }
      } else {
        assert forall k :: 0 <= k < |ts| - 1 ==> ts[1..][k] == ts[k + 1];
      }
    }
  }

  /** Once the staggered timers have all fired, every bar shows its target
      width. */
  lemma StaggerFillsAll(widths: seq<string>, progress: seq<string>)
    requires |widths| == |progress|
    ensures forall i :: 0 <= i < |widths| ==>
      FireAll(widths, progress, Stagger(|widths|))[i] == progress[i] + "%"
  {
    forall i | 0 <= i < |widths|
      ensures FireAll(widths, progress, Stagger(|widths|))[i] == progress[i] + "%"
    {
      FireAllSets(widths, progress, Stagger(|widths|), i);
      assert Stagger(|widths|)[i].bar == i;
    }
  }
}

=== FILE: theme.dfy ===
/** The light/dark theme switch (app.js:147-179): a click flips the
    in-memory theme, writes it to the root element's `data-color-scheme`
    attribute, swaps the button's icon, retitles the button with the
    action a next click would take, and announces the new theme. */
module Theme {
  import opened Wrappers
  import opened Notifications

  datatype Scheme = Light | Dark

  function Name(t: Scheme): string {
    match t
    case Light => "light"
    case Dark => "dark"
  }

  function Other(t: Scheme): (r: Scheme)
    ensures r != t
  {
    match t
    case Light => Dark
    case Dark => Light
  }

  /** The in-memory theme and what the page shows of it: the root
      attribute (absent until the first click), the icon's class (None
      when the button holds no icon), and the button's title. */
  datatype View = View(current: Scheme, attribute: Option<string>, icon: Option<string>, title: string)

  function IconClass(t: Scheme): string {
    if t == Dark then "fas fa-sun" else "fas fa-moon"
  }

  /** `setTheme`. */
  function SetTheme(v: View, t: Scheme): View {
    View(t, Some(Name(t)), if v.icon.Some? then Some(IconClass(t)) else None,
         "Switch to " + Name(Other(t)) + " theme")
  }

  /** The page shows the in-memory theme: the attribute names it, the
      icon (if any) is the sun for dark and the moon for light, and the
      title offers the other theme. */
  ghost predicate ShowsTheme(v: View) {
    && v.attribute == Some(Name(v.current))
    && (v.icon.Some? ==> v.icon == Some(if v.current == Dark then "fas fa-sun" else "fas fa-moon"))
    && v.title == "Switch to " + Name(Other(v.current)) + " theme"
  }

  /** A click on the toggle: the new view and the notice it raises. */
  function Click(v: View): (r: (View, Notice))
    ensures r.0.current != v.current
    ensures ShowsTheme(r.0)
    ensures r.0.icon.Some? <==> v.icon.Some?
    ensures r.1 == Notice("Switched to " + Name(r.0.current) + " theme", Info)
  {
    var t := Other(v.current);
    (SetTheme(v, t), Notice("Switched to " + Name(t) + " theme", Info))
  }

  /** Two clicks bring back a view that showed its theme. */
  lemma ClickTwice(v: View)
    requires ShowsTheme(v)
    ensures Click(Click(v).0).0 == v
  {
  }

  /** The page starts in light theme without the attribute; the first
      click switches to dark. */
  lemma FirstClick(icon: Option<string>, title: string)
    ensures var r := Click(View(Light, None, icon, title));
            && r.0.attribute == Some("dark")
            && r.0.title == "Switch to light theme"
            && r.1.message == "Switched to dark theme"
  {
  }
}

=== FILE: uri_component.dfy ===
/** `encodeURIComponent` of section 19.2.6.4 of ECMA-262 (app.js:291-292),
    and the percent-decoding of section 2.1 of RFC 3986 that undoes it.
    A Dafny `char` is a Unicode scalar value, so the lone-surrogate
    `URIError` of the standard cannot arise in this model: every string
    encodes. */
module UriComponent {
  import opened Wrappers

  type Byte = b: int | 0 <= b < 256

  /** The characters `encodeURIComponent` leaves unescaped:
      `A-Z a-z 0-9 - _ . ! ~ * ' ( )`. */
  predicate IsUnreserved(c: char) {
    || 'A' <= c <= 'Z' || 'a' <= c <= 'z' || '0' <= c <= '9'
    || c == '-' || c == '_' || c == '.' || c == '!' || c == '~'
    || c == '*' || c == '\'' || c == '(' || c == ')'
  }

  /** The UTF-8 encoding of one scalar value (section 3 of RFC 3629). */
  function Utf8(c: char): (bs: seq<Byte>)
    ensures 1 <= |bs| <= 4
    ensures |bs| == 1 <==> c as int < 0x80
    ensures |bs| == (if c as int < 0x80 then 1 else if c as int < 0x800 then 2
                     else if c as int < 0x10000 then 3 else 4)
    ensures |bs| == 1 ==> bs[0] == c as int
  {
    var n := c as int;
    if n < 0x80 then [n]
    else if n < 0x800 then
      assert n / 64 < 32;
      [0xC0 + n / 64, 0x80 + n % 64]
    else if n < 0x10000 then
      assert n / 4096 < 16;
      [0xE0 + n / 4096, 0x80 + (n / 64) % 64, 0x80 + n % 64]
    else
      assert n / 262144 < 5;
      [0xF0 + n / 262144, 0x80 + (n / 4096) % 64, 0x80 + (n / 64) % 64, 0x80 + n % 64]
  }

  /** The scalar value a well-formed UTF-8 sequence of one to four bytes
      denotes: the lead byte's payload followed by six bits per
      continuation byte. */
  function Utf8Value(bs: seq<Byte>): int
    requires 1 <= |bs| <= 4
  {
    var b0: int := bs[0];
    if |bs| == 1 then b0
    else
      var b1: int := bs[1];
      if |bs| == 2 then (b0 - 0xC0) * 64 + (b1 - 0x80)
      else
        var b2: int := bs[2];
        if |bs| == 3 then ((b0 - 0xE0) * 64 + (b1 - 0x80)) * 64 + (b2 - 0x80)
        else
          var b3: int := bs[3];
          (((b0 - 0xF0) * 64 + (b1 - 0x80)) * 64 + (b2 - 0x80)) * 64 + (b3 - 0x80)
  }

  /** UTF-8 is faithful: the bytes of a character denote that character,
      and every byte after the first is a continuation byte. */
  lemma Utf8Decodes(c: char)
    ensures Utf8Value(Utf8(c)) == c as int
    ensures forall k :: 1 <= k < |Utf8(c)| ==> 0x80 <= Utf8(c)[k] < 0xC0
  {
    var n := c as int;
    Split64(n);
    if n >= 0x800 {
      Split64(n / 64);
      Div64Twice(n);
      if n >= 0x10000 {
        Split64(n / 4096);
        Div64Twice(n / 64);
      }
    }
  }

  /** Six bits off the bottom of a non-negative number. */
  lemma Split64(m: int)
    requires m >= 0
    ensures (m / 64) * 64 + m % 64 == m && 0 <= m % 64 < 64
  {
  }

  lemma Div64Twice(m: int)
    requires m >= 0
    ensures m / 4096 == (m / 64) / 64 && m / 262144 == (m / 64) / 4096
  {
  }

  /** The digits `encodeURIComponent` writes: `0-9` and upper-case `A-F`. */
  predicate IsUpperHex(c: char) {
    '0' <= c <= '9' || 'A' <= c <= 'F'
  }

  /** Upper-case hexadecimal digit for 0..15, as the standard prescribes. */
  function HexDigit(d: int): (c: char)
    requires 0 <= d < 16
    ensures IsUnreserved(c) && IsUpperHex(c)
  {
    if d < 10 then ('0' as int + d) as char else ('A' as int + d - 10) as char
  }

  predicate IsHex(c: char) {
    '0' <= c <= '9' || 'A' <= c <= 'F' || 'a' <= c <= 'f'
  }

  /** Value of a hexadecimal digit of either case. */
  function HexValue(c: char): (d: int)
    requires IsHex(c)
    ensures 0 <= d < 16
  {
    if '0' <= c <= '9' then c as int - '0' as int
    else if 'A' <= c <= 'F' then c as int - 'A' as int + 10
    else c as int - 'a' as int + 10
  }

  /** `%XX` for one byte. */
  function PercentByte(b: Byte): string {
    ['%', HexDigit(b / 16), HexDigit(b % 16)]
  }

  function PercentBytes(bs: seq<Byte>): string {
    if |bs| == 0 then [] else PercentByte(bs[0]) + PercentBytes(bs[1..])
  }

  /** Whether `c` may appear in the output of `encodeURIComponent`. */
  predicate IsEncodedChar(c: char) {
    IsUnreserved(c) || c == '%'
  }

  predicate AllEncodedChars(t: string) {
    forall k :: 0 <= k < |t| ==> IsEncodedChar(t[k])
  }

  lemma {:induction false} PercentBytesChars(bs: seq<Byte>)
    ensures |PercentBytes(bs)| == 3 * |bs|
    ensures AllEncodedChars(PercentBytes(bs))
    ensures forall k :: 0 <= k < |PercentBytes(bs)| ==>
      if k % 3 == 0 then PercentBytes(bs)[k] == '%' else IsUpperHex(PercentBytes(bs)[k])
  {
    if |bs| > 0 {
      PercentBytesChars(bs[1..]);
    }
  }

  /** One character: unreserved characters pass through, every other one
      becomes the `%XX` escapes of its UTF-8 bytes. */
  function EncodeChar(c: char): (t: string)
    ensures AllEncodedChars(t)
    ensures |t| == 1 <==> IsUnreserved(c)
    ensures !IsUnreserved(c) ==> forall k :: 0 <= k < |t| ==> t[k] == '%' || IsUpperHex(t[k])
  {
    PercentBytesChars(Utf8(c));
    if IsUnreserved(c) then [c] else PercentBytes(Utf8(c))
  }

  /** `encodeURIComponent`. */
  function Encode(s: string): (t: string)
    ensures AllEncodedChars(t)
    ensures |t| >= |s|
    ensures '&' !in t && '=' !in t && '?' !in t && '#' !in t
  {
    if |s| == 0 then []
    else
      var head, tail := EncodeChar(s[0]), Encode(s[1..]);
      EncodedCharsAppend(head, tail);
      head + tail
  }

  lemma EncodedCharsAppend(a: string, b: string)
    requires AllEncodedChars(a) && AllEncodedChars(b)
    ensures AllEncodedChars(a + b)
    ensures '&' !in a + b && '=' !in a + b && '?' !in a + b && '#' !in a + b
  {
    var t := a + b;
    forall k | 0 <= k < |t| ensures IsEncodedChar(t[k]) {
      if k < |a| {
        assert t[k] == a[k];
      } else {
        assert t[k] == b[k - |a|];
      }
    }
  }

  /** Encoding distributes over concatenation. */
  lemma {:induction false} EncodeAppend(a: string, b: string)
    ensures Encode(a + b) == Encode(a) + Encode(b)
  {
    if |a| == 0 {
      assert a + b == b;
    } else {
      assert (a + b)[0] == a[0];
      assert (a + b)[1..] == a[1..] + b;
      EncodeAppend(a[1..], b);
    }
  }

  /** A text made of unreserved characters encodes to itself. */
  lemma {:induction false} EncodeUnreserved(s: string)
    requires forall k :: 0 <= k < |s| ==> IsUnreserved(s[k])
    ensures Encode(s) == s
  {
    if |s| > 0 {
      EncodeUnreserved(s[1..]);
      assert s == [s[0]] + s[1..];
    }
  }

  /** The UTF-8 bytes of a whole string. */
  function Utf8String(s: string): seq<Byte> {
    if |s| == 0 then [] else Utf8(s[0]) + Utf8String(s[1..])
  }

  predicate IsAscii(s: string) {
    forall k :: 0 <= k < |s| ==> s[k] as int < 0x80
  }

  /** The bytes of an ASCII text: one per character, its code. */
  function AsciiBytes(s: string): (bs: seq<Byte>)
    requires IsAscii(s)
    ensures |bs| == |s|
  {
    seq(|s|, k requires 0 <= k < |s| => s[k] as int)
  }

  /** On ASCII text UTF-8 is the identity on character codes. */
  lemma {:induction false} Utf8Ascii(s: string)
    requires IsAscii(s)
    ensures Utf8String(s) == AsciiBytes(s)
  {
    if |s| > 0 {
      Utf8Ascii(s[1..]);
      assert AsciiBytes(s) == [s[0] as int] + AsciiBytes(s[1..]);
    }
  }

  function Prepend(bs: seq<Byte>, o: Option<seq<Byte>>): Option<seq<Byte>> {
    match o
    case None => None
    case Some(rest) => Some(bs + rest)
  }

  /** Percent-decoding to bytes: `%XX` (either case) is one byte, an ASCII
      character other than `%` is its own code; a stray `%` or a
      non-ASCII character makes the text malformed. */
  function DecodeBytes(t: string): Option<seq<Byte>> {
    if |t| == 0 then Some([])
    else if t[0] == '%' then
      if |t| >= 3 && IsHex(t[1]) && IsHex(t[2]) then
        Prepend([HexValue(t[1]) * 16 + HexValue(t[2])], DecodeBytes(t[3..]))
      else None
    else if t[0] as int < 0x80 then Prepend([t[0] as int], DecodeBytes(t[1..]))
    else None
  }

  lemma HexRoundTrip(d: int)
    requires 0 <= d < 16
    ensures IsHex(HexDigit(d)) && HexValue(HexDigit(d)) == d
  {
  }

  lemma {:induction false} DecodePercentBytes(bs: seq<Byte>, rest: string)
    ensures DecodeBytes(PercentBytes(bs) + rest) == Prepend(bs, DecodeBytes(rest))
  {
    if |bs| == 0 {
      assert PercentBytes(bs) + rest == rest;
      match DecodeBytes(rest)
      case None =>
      case Some(r) => assert bs + r == r;
    } else {
      var t := PercentBytes(bs) + rest;
      var b := bs[0];
      HexRoundTrip(b / 16);
      HexRoundTrip(b % 16);
      assert t == PercentByte(b) + (PercentBytes(bs[1..]) + rest);
      assert t[3..] == PercentBytes(bs[1..]) + rest;
      DecodePercentBytes(bs[1..], rest);
      match DecodeBytes(rest)
      case None =>
      case Some(r) => assert bs + r == [b] + (bs[1..] + r);
    }
  }

  lemma DecodeEncodeChar(c: char, rest: string)
    ensures DecodeBytes(EncodeChar(c) + rest) == Prepend(Utf8(c), DecodeBytes(rest))
  {
    if IsUnreserved(c) {
      assert (EncodeChar(c) + rest)[1..] == rest;
    } else {
      DecodePercentBytes(Utf8(c), rest);
    }
  }

  /** Round trip: percent-decoding the encoding of any string yields its
      UTF-8 bytes. */
  lemma {:induction false} DecodeEncode(s: string)
    ensures DecodeBytes(Encode(s)) == Some(Utf8String(s))
  {
    if |s| == 0 {
    } else {
      DecodeEncode(s[1..]);
      DecodeEncodeChar(s[0], Encode(s[1..]));
    }
  }

  /** Round trip on ASCII text: decoding gives back the characters' codes. */
  lemma DecodeEncodeAscii(s: string)
    requires IsAscii(s)
    ensures DecodeBytes(Encode(s)) == Some(AsciiBytes(s))
  {
    DecodeEncode(s);
    Utf8Ascii(s);
  }

  /** A space becomes `%20` and a line feed `%0A`. */
  lemma EncodeSpaceAndNewline()
    ensures Encode(" ") == "%20"
    ensures Encode("\n") == "%0A"
  {
    assert PercentBytes([32]) == PercentByte(32) + PercentBytes([]);
    assert PercentBytes([10]) == PercentByte(10) + PercentBytes([]);
    assert HexDigit(2) == '2' && HexDigit(0) == '0' && HexDigit(10) == 'A';
  }

  /** The hfield delimiters `&` and `=` are escaped. */
  lemma EncodeDelimiters()
    ensures Encode("&") == "%26"
    ensures Encode("=") == "%3D"
  {
    assert PercentBytes([38]) == PercentByte(38) + PercentBytes([]);
    assert PercentBytes([61]) == PercentByte(61) + PercentBytes([]);
    assert HexDigit(2) == '2' && HexDigit(6) == '6' && HexDigit(3) == '3' && HexDigit(13) == 'D';
  }
}

=== FILE: wrappers.dfy ===
/** An optional value shared by the model's modules. */
module Wrappers {

  /** A value that may be absent: the model's stand-in for a JavaScript
      `null` result (a missing element, no match). */
  datatype Option<+T> = None | Some(value: T)
}
